=== FILE: README.md ===
# tg-spam admin-chat handlers in Dafny

This project models the admin-chat side of the tg-spam bot (`app/events/admin.go`). That is where moderators handle the bot's ban reports. The model covers four things:

- **Forwarded spam.** A message forwarded into the admin chat is spam the bot missed. `MsgHandler` finds its author through the locator, reports the detection results, learns the text as spam, deletes the original message and bans its author.
- **Ban reports.** `ReportBan` posts a report with two buttons. Their payloads are `?userID:msgID` ("change ban") and `!userID:msgID` ("info").
- **Button presses.** `InlineCallbackHandler` dispatches on the payload's first character:
  - `?` swaps in a confirmation keyboard, "Unban for real" / "Keep it banned";
  - `+` confirms the ban, learns the text as spam and, in training mode, deletes the message and bans for real;
  - `!` appends the spam-check results to the report;
  - anything else unbans the user, approves them and learns the text as ham.
- **Helpers.** The model also covers the text helpers those handlers use:
  - the payload parser `parseCallbackData`;
  - `getCleanMessage`, which recovers the original text from a report;
  - `extractUsername`, which reads the user name back out of a report with two fixed regular expressions;
  - `shrink`.

The modules follow the source:

| module | models |
|---|---|
| `Wrappers` | `Option` and `Result` |
| `Text` | Go's `strings.Split` / `strings.Join` / `strings.ReplaceAll` on one character, and byte length (`len` of a UTF-8 string) |
| `Codec` | `strconv.ParseInt` / `strconv.Atoi` (64-bit), decimal formatting, the callback payload format, `parseCallbackData` |
| `CleanMessage` | `getCleanMessage` |
| `Username` | `extractUsername` and its two patterns, written out as declarative predicates: leftmost match, lazy and greedy runs; the ban-report text it reads back |
| `Admin` | the handlers as effect traces |

A handler run is a `Run`: the list of `Effect`s it issues, in order, and an `Outcome`. The outcome is `Done` (nil), `Failed(causes)` (an error), or `Panicked` (a Go runtime panic). The collaborators are not part of this model. The Telegram API, the bot, the locator, the super-user list, the markdown escaper and Go's `%q` are represented by a `World` of total functions. `World` also says which calls return an error.

Go errors that accumulate in a `multierror` become `Collected(FailuresOf(w, calls))`. A call whose error makes the handler return at once is an `Attempt`. `FailFast` states that a run stopped at its first failing call.

## Model

| member | source | states |
|---|---|---|
| Codec.ParseInt64 | app/events/admin.go:455-460 | Base-10 ParseInt / Atoi. The result exists exactly for an optional sign followed by one or more ASCII digits whose value fits in int64, and that value is the result. |
| Codec.FormatInt | app/events/admin.go:428-430 | `%d`: an ASCII decimal literal whose value is the number, starting with a digit or a minus sign (never a plus) and holding no colon. FormatIntCanonical adds that it is the canonical form. |
| Codec.FormatIntCanonical | app/events/admin.go:428-430 | `%d` writes a minus sign exactly for a negative number, and no leading zero: `007` and `-0` never appear. |
| Codec.ParseFormatInt | app/events/admin.go:428-430 | Every int64 printed with `%d` parses back to itself. |
| Codec.Encode | app/events/admin.go:428-430 | The payload `<prefix><userID>:<msgID>`. Its contract is given by PayloadRoundTrip (it parses back to the ids) and EncodedAction (its prefix is read as the action it was built for). |
| Codec.ActionOf | app/events/admin.go:145-164 | The prefix tests in the handler's order: `?`, then `+`, then `!`, else unban. EncodedAction and InlineCallbackHandler tie it to the handler reached. |
| Codec.ParseCallbackData | app/events/admin.go:441-463 | Input shorter than 3 bytes is rejected before any prefix is stripped. Success holds exactly when, after at most one leading `?`, `+` or `!` is stripped, the rest is two int64 literals around a single colon, and the result is those two values. A part-count error carries a count other than two, and a user-id or message-id error names a part that is not an int64 literal. ParseErrorKinds says which error comes for which input. |
| Codec.ParseErrorKinds | app/events/admin.go:451-460 | The part count is checked first: any count other than two is that error, with the count. With two parts, a user part that is not an int64 literal is the user-id error naming it. A message-id error comes only when the user part parsed, and it names the second part. |
| Codec.PayloadRoundTrip | app/events/admin.go:428-430 | For every action and int64 ids, the payload built with that action's prefix parses back to the same user and message ids. |
| Codec.EncodedAction | app/events/admin.go:32-36 | The prefix of an encoded payload is recognised as the action it was built for (`?` ask, `+` ban, `!` info, none for unban). A digit or `-` never reads as a prefix. |
| Codec.AskPayloadRewrites | app/events/admin.go:195-196 | Dropping the `?` of an ask-confirm payload gives the unban payload. Putting `+` in its place gives the ban-confirmed payload. |
| Codec.ConfirmationRewriteKeepsIds | app/events/admin.go:195-196 | Whenever a `?` payload parses, both rewrites (`data[1:]` and `"+"+data[1:]`) parse to the same ids. |
| Codec.DoublePlusParses | app/events/admin.go:447-455 | Only one prefix is stripped and ParseInt accepts its own sign, so `++5:3` is a valid payload for user 5, message 3. |
| CleanMessage.GetCleanMessage | app/events/admin.go:396-414 | Fewer than two lines is an error. Without a line starting with "spam detection results", the result is lines 2.. joined. With one at index i >= 3, it is lines 2..i-2. A first marker at index 0, 1 or 2 is the slice panic. |
| CleanMessage.CleanWithoutResults | app/events/admin.go:386-414 | For a header line, a blank line and a body without marker lines, the body comes back unchanged. |
| CleanMessage.CleanDropsLineBeforeMarker | app/events/admin.go:386-414 | When a results section follows, the line just before the marker is dropped whatever it holds, and exactly the body comes back. |
| Username.ExtractUsername | app/events/admin.go:466-482 | A markdown-link match wins. Its capture is the one at the leftmost `[` that can match, with the shortest newline-free capture. Only without one is the plain `{digits name rest}` form read, at its leftmost match, capturing the non-space run. Not found happens exactly when neither pattern matches. |
| Username.PreferredMarkdownUnique | app/events/admin.go:468-469 | The leftmost-shortest markdown match is unique, so the markdown capture is well defined. |
| Username.LeftmostPlainUnique | app/events/admin.go:474-475 | The leftmost plain match is unique. |
| Username.FirstLinkNamesUser | app/events/admin.go:468-472 | A link `[name](tg://user?id=digits)` at the first `[`, with a name free of `]` and newlines, yields that name. |
| Username.FirstBraceNamesUser | app/events/admin.go:474-479 | In a text without `[`, a plain match at the first `{` yields its captured name. |
| Username.ReportNamesUser | app/events/admin.go:41-42 | The ban report's text yields the banned user's name back, for any non-negative user id, any message text, and any name free of `]` and newlines. |
| Username.PlainNamesUser | app/events/admin.go:474-479 | `{digits name rest}` with a non-space name and a one-line rest, in a text without `[`, yields that name. |
| Username.PlainFormExample | app/events/admin.go:474 | `{200312168 umputun Umputun U}` yields `umputun`. |
| Admin.Shrink | app/events/admin.go:52-57 | A text of at most max characters is unchanged. A longer one becomes its first max characters followed by "...". |
| Admin.SpamInfoText | app/events/admin.go:94-101 | The block is "can't get spam info" exactly when there are no check results. |
| Admin.SpamInfoLines | app/events/admin.go:94-101 | Splitting the block back on newlines gives one "- "+escaped line per check, in order, provided the escaped checks hold no newline. |
| Admin.MsgHandler | app/events/admin.go:51-133 | A non-forwarded message does nothing. A locator miss or a super-user's message issues nothing and fails. Otherwise the calls are, in order, remove-approved, report, learn-spam, delete, ban. Dry mode issues exactly the first two. Outside dry mode a failed learn-spam issues exactly the first three, and otherwise all five are issued. A run of three or more calls stops at three exactly when learn-spam failed. That failure is the only error returned, while every other failure is collected. The ban is never a dry one and keeps the training flag. |
| Admin.SpamCalls | app/events/admin.go:86-128 | The five calls of a forwarded spam message in source order: remove-approved, the detection report, learn-spam, delete, ban. MsgHandler and RunSpamCalls state which of them run. |
| Admin.DetectionReport | app/events/admin.go:101-102 | The detection report text: the quoted user name and id, the info block, and the "user banned" line. MsgHandler sends it second, to the admin chat. |
| Admin.FailuresOf | app/events/admin.go:79-128 | The multierror a handler accumulates: no more errors than calls, each naming a call of the list that failed, and none exactly when no call fails. FailuresOfComplete and FailuresOfAppend add that every failing call is collected, in call order. |
| Admin.FailuresOfAppend | app/events/admin.go:79-128 | The errors collected over two stretches of calls are the first stretch's followed by the second's, so the multierror keeps call order. |
| Admin.FailuresOfComplete | app/events/admin.go:79-128 | Every call that fails has its error in the multierror. |
| Admin.RunSpamCalls | app/events/admin.go:86-132 | Over any five calls: dry mode stops after two. A failure of the third stops there with that error alone. Otherwise all five run and every failure among them is returned. |
| Admin.FailuresSkipSuccess | app/events/admin.go:86-128 | A call that succeeds adds nothing to the collected errors. |
| Admin.AttemptSequenced | app/events/admin.go:258-301 | Putting a call that returns on error in front of a run that follows a list of calls gives a run that follows that call and then the list. |
| Admin.SequencedShape | app/events/admin.go:258-301 | A run that follows a list of calls issues only calls from that list, and a finished run issued all of them. |
| Admin.RunSequence | app/events/admin.go:258-301 | Issuing a list of calls, each returning on its error, makes a prefix of the list ending at the first failure. It returns nil exactly when none fails. |
| Admin.ReportBan | app/events/admin.go:39-46 | One markdown message to the admin chat, never an error. Its text yields the banned user's name back through extractUsername. Line by line, it is the header naming the user, a blank line, the escaped spam text with its newlines turned into spaces, and two empty lines. Its first button reads as ask-confirm and its second as show-info, and both parse back to the user and message ids. |
| Admin.ReportLines | app/events/admin.go:41-42 | For a one-line name, the report splits into the header naming the user, a blank line, the flattened spam text (where getCleanMessage starts reading), and two empty lines. |
| Admin.UnbanMarkup | app/events/admin.go:425-432 | One row: the action button with the `?` payload and the info button with the `!` payload. UnbanMarkupButtons states what they carry. |
| Admin.EncodedButton | app/events/admin.go:428-430 | An encoded payload is read as the action it was built for and, for int64 ids, parses back to those ids. |
| Admin.UnbanMarkupButtons | app/events/admin.go:428-430 | The "change ban" button's payload has the `?` prefix and the "info" button's the `!` prefix. For int64 ids, every button of the row parses back to those ids. |
| Admin.InlineCallbackHandler | app/events/admin.go:137-180 | A press outside the admin chat does nothing. In the admin chat, `?`, `+` and `!` select ask-confirm, ban-confirmed and show-info, and anything else, including an empty payload, selects unban. |
| Admin.PressDispatch | app/events/admin.go:137-180 | Pressing a button the bot encoded for an action reaches that action's handler, and the handler reads back the same ids. |
| Admin.ConfirmationButtons | app/events/admin.go:193-197 | The confirmation keyboard built from a report's `?` button holds the unban payload and the ban-confirmed payload for the same user and message. |
| Admin.ConfirmationKeyboard | app/events/admin.go:187-198 | "Unban for real" with `data[1:]` and "Keep it banned" (or "Confirm ban" in training mode) with `"+"+data[1:]`. ConfirmationButtons and ConfirmationRewriteKeepsIds state what the payloads carry. |
| Admin.CallbackAskBanConfirmation | app/events/admin.go:184-204 | The only call replaces the pressed message's keyboard with the confirmation keyboard. The run fails exactly when that call does. |
| Admin.CallbackBanConfirmed | app/events/admin.go:210-242 | The "ban confirmed" edit comes first, and its failure is the run's only call and error. A report with too few lines fails after the edit, and a marker too early panics. Otherwise learning the clean text as spam comes second, and its failure ends the run with that error. Once learned, a payload that does not parse ends the run with that error, and outside training mode the run ends there with nil. In training mode deleteAndBan on the payload's ids follows and decides the rest. |
| Admin.BanConfirmedWith | app/events/admin.go:210-242 | The same trace, given the clean text and the parsed payload. |
| Admin.LearnConfirmedSpam | app/events/admin.go:220-241 | Given the clean text and the parsed payload: a report with too few lines fails and a marker too early panics, both issuing nothing. Otherwise the clean text is learned as spam first, and a failure there is the only call and error. After that, a failing parse is the error, outside training mode the run is done, and in training mode deleteAndBan follows. |
| Admin.BanIfTraining | app/events/admin.go:229-241 | A parse failure issues nothing and fails with the parse error. Outside training mode a parsed payload issues nothing and returns nil. In training mode it is deleteAndBan on the payload's ids. Only bans and deletes are ever issued. |
| Admin.Annotated | app/events/admin.go:212-213 | The pressed message's text with "_<what> by <user> in <elapsed>_" appended after a blank line. |
| Admin.ClosingEdit | app/events/admin.go:212-215 | The edit that closes a report: the annotated text in place, with an empty keyboard. The two confirmation handlers state where it comes in their runs. |
| Admin.DeleteAndBan | app/events/admin.go:344-385 | One or two calls: the delete is always issued, last, and the ban is skipped exactly for a super-user. Any ban is for the given user in the primary chat, is never a training one, and keeps the dry flag. A failed delete is the error, in place of a failed ban. Otherwise every failure is returned. |
| Admin.CallbackUnbanConfirmed | app/events/admin.go:248-302 | The press is answered first, and the run stops at its first failure. A failed answer, a payload that does not parse, a report with too few lines and a marker too early each end the run right after the answer, with that error or the panic. Otherwise the run is exactly the calls answer, learn ham from the clean text, unban (outside training mode), approve under the extracted name, and the "unbanned" edit, up to and including the first failing one, and it returns nil when none fails. Any unban or approval is for the payload's user. |
| Admin.UnbanAnswered | app/events/admin.go:248-302 | The same trace, given the parsed payload and the clean text. |
| Admin.UnbanAnsweredShape | app/events/admin.go:248-302 | Any unban is for the payload's user, only outside training mode, and any approval is under the extracted name. A finished run made 4 calls in training mode, otherwise 5, learned the clean text as ham second, and ended with the "unbanned" edit. |
| Admin.UnbanTraceShape | app/events/admin.go:272-301 | Any run that follows the answer, the ham sample and the unban calls unbans and approves only the given user, and when it finishes it has made all of them in order. |
| Admin.UnbanParsed | app/events/admin.go:258-301 | Given the parsed payload and the clean text: a parse failure, a report with too few lines and a marker too early each issue nothing, with that error or the panic. Otherwise the run is exactly learn ham, unban (outside training mode), approve and edit, up to and including the first failing call, and nil when none fails. |
| Admin.UnbanAndApprove | app/events/admin.go:272-301 | The run is exactly unban (never in training mode), approve under the extracted name, and the "unbanned" edit, up to and including the first failing call. A finished run has 2 calls in training mode, otherwise 3, and ends with the edit. |
| Admin.UnbanCallsShape | app/events/admin.go:272-301 | The unban calls are 2 in training mode, otherwise 3. They end with the "unbanned" edit and name only the given user. |
| Admin.ApprovedName | app/events/admin.go:284-288 | The name extractUsername finds in the report, or the empty name when it finds none. ReportApprovedName ties it to the name the ban report wrote. |
| Admin.ReportApprovedName | app/events/admin.go:284-288 | Unbanning from a ban report approves the user under the very name the report gave them, for a non-negative id and a name without `]` or newlines. |
| Admin.ShowInfoText | app/events/admin.go:306-326 | "can't get spam info" exactly when the payload does not parse, parses to user 0, the locator has no record, or the record has no checks. Otherwise the block lists the located checks for the payload's user. |
| Admin.InfoKeyboard | app/events/admin.go:329-333 | No keyboard, or an empty one, becomes the empty keyboard. Otherwise the first row is cut to its first button and the other rows are kept. An empty first row is the `[:1]` panic. |
| Admin.CallbackShowInfo | app/events/admin.go:306-341 | It panics exactly on an empty first keyboard row, and then issues nothing, since the keyboard is cut before the edit is built. Otherwise it makes one markdown edit appending "spam detection results" and the info block, with the trimmed keyboard, and fails exactly when the edit does. |

## Left out

- The Telegram transport (`send`, `tbAPI.Send`, `tbAPI.Request`) is modelled only as recorded `Effect`s whose success comes from `World.fails`. Message options the handlers never vary (`DisableWebPagePreview`, the permanent ban duration) are not recorded.
- `banUserOrChannel`, `escapeMarkDownV1Text`, Go's `%q`, the bot's `OnMessage` classifier and the locator and super-user implementations are not part of this model. They are functions of the `World`. Check results appear already printed by their `String` method.
- The elapsed-time text of the "ban confirmed" / "unbanned" annotations depends on the clock. It is a string field of the query.
- Logging, the wording of returned errors and go-multierror's formatting are not modelled. Errors are `Cause` values, and deleteAndBan's re-joined error text is not modelled either.
- Admin.ReportBan: the name round-trip is stated only for non-negative user ids and names without `]` or newlines. For a negative id (a channel) the header link does not match, because the markdown pattern's `\d+` does not match the `-`. Any later markdown link in the text, for instance in the escaped spam line, otherwise the plain pattern, then decides.
- Markdown rendering is not modelled. ReportNamesUser, ReportLines and ReportApprovedName are about the text as the bot sends it. The callbacks read `q.text`, which is whatever Telegram returns for the message after rendering, and the model treats it as unconstrained input.
- Username.ExtractUsername: patterns are over Unicode code points. A text that is not valid UTF-8 is outside the model.
- Codec.ParseInt64: `Atoi` is taken to be 64-bit, as on the 64-bit platforms the bot is built for.
- Admin.InfoKeyboard: Go's `row[:1]` on an empty row only panics when the row's capacity is 0. That is the case for a keyboard decoded from Telegram's JSON, which is the only source of `query.Message.ReplyMarkup`, and the model always treats it as a panic.
- Admin.ShowInfoText: the source appends a "failed to parse userID" line when the payload does not parse, but it only displays the lines when the user id is non-zero. A failed parse leaves the id at 0, so that line is never shown. The model follows the code and shows "can't get spam info".
- CleanMessage.GetCleanMessage follows the code rather than the layout comment above it. The line just before the first marker line is dropped whatever it holds, so a report with a marker also loses the last line of the original text when there is no blank line in between.
- Admin.DeleteAndBan follows the code: the delete is issued in dry mode as well. Only the ban request carries the dry flag.

=== FILE: admin.dfy ===
/** The admin-chat handlers of app/events/admin.go as effect traces.

    Every call the handlers make into Telegram or into the bot is an
    `Effect`; a handler run is the list of calls it issues, in order, and
    the value it returns. Whatever the collaborators answer — the locator's
    records, the super-user list, the classifier's check results, and
    whether each call succeeds — comes from a `World`. */
module Admin {
  import opened Wrappers
  import opened Text
  import opened Codec
  import opened CleanMessage
  import opened Username

  // ---------------------------------------------------------------------
  // Data model
  // ---------------------------------------------------------------------

  datatype Config = Config(primChatID: int, adminChatID: int, trainingMode: bool, dry: bool)

  /** What the locator remembers about a message seen in the primary chat. */
  datatype MsgInfo = MsgInfo(userName: string, userID: int, msgID: int)

  datatype Button = Button(caption: string, data: string)

  type Keyboard = seq<seq<Button>>

  /** banRequest; the duration is always the permanent one. */
  datatype BanRequest = BanRequest(userID: int, chatID: int, dry: bool, training: bool)

  /** The calls the handlers make, recorded with the arguments that matter. */
  datatype Effect =
    | RemoveApprovedUser(userID: int)
    | SendMessage(chatID: int, text: string, keyboard: Keyboard, markdown: bool)
    | UpdateSpam(text: string)
    | UpdateHam(text: string)
    | DeleteMessage(chatID: int, msgID: int)
    | Ban(request: BanRequest)
    | UnbanMember(chatID: int, userID: int)
    | AnswerCallback(queryID: string, text: string)
    | AddApprovedUser(userID: int, name: string)
    | EditMarkup(chatID: int, msgID: int, keyboard: Keyboard)
    | EditText(chatID: int, msgID: int, text: string, keyboard: Keyboard, markdown: bool)

  /** The collaborators. `checks` and `spamChecks` give the check results
      already printed with their String method; `escape` is
      escapeMarkDownV1Text and `quote` is Go's `%q`; `fails` says which
      calls return an error. */
  datatype World = World(
    locate: string -> Option<MsgInfo>,
    isSuper: string -> bool,
    checks: (string, int) -> seq<string>,
    spamChecks: int -> Option<seq<string>>,
    userNameByID: int -> string,
    escape: string -> string,
    quote: string -> string,
    fails: Effect -> bool)

  /** A message posted in the admin chat. */
  datatype AdminMessage = AdminMessage(text: string, forwardSenderName: string, forwardedFrom: bool)

  /** A button press in a chat: the query id, the button's payload, the
      chat and message holding the button, that message's text and
      keyboard, who pressed it, and the printed time since the message. */
  datatype Query = Query(
    id: string, data: string, chatID: int, messageID: int,
    text: string, markup: Option<Keyboard>, fromUserName: string, elapsed: string)

  /** Why a handler returned an error. */
  datatype Cause =
    | NotInLocator(excerpt: string)
    | SuperUserMessage(userName: string, userID: int)
    | CallFailed(call: Effect)
    | UnexpectedAdminText(text: string)
    | BadCallbackData(data: string, error: ParseError)

  /** The handler's return: nil, an error, or a Go runtime panic. */
  datatype Outcome = Done | Failed(causes: seq<Cause>) | Panicked

  datatype Run = Run(effects: seq<Effect>, outcome: Outcome)

  // ---------------------------------------------------------------------
  // Running calls
  // ---------------------------------------------------------------------

  /** errs.ErrorOrNil() of a multierror. */
  function Collected(causes: seq<Cause>): Outcome
  {
    if causes == [] then Done else Failed(causes)
  }

  /** The failures among `calls`, in order. */
  function FailuresOf(w: World, calls: seq<Effect>): (causes: seq<Cause>)
    ensures |causes| <= |calls|
    ensures (forall i :: 0 <= i < |calls| ==> !w.fails(calls[i])) <==> causes == []
    // each collected error is a call of the list that failed
    ensures forall k :: 0 <= k < |causes| ==>
      causes[k].CallFailed? && causes[k].call in calls && w.fails(causes[k].call)
  {
    if calls == [] then []
    else (if w.fails(calls[0]) then [CallFailed(calls[0])] else []) + FailuresOf(w, calls[1..])
  }

  /** The multierror of two stretches of calls is the first stretch's
      errors followed by the second's. */
  lemma {:induction false} FailuresOfAppend(w: World, a: seq<Effect>, b: seq<Effect>)
    ensures FailuresOf(w, a + b) == FailuresOf(w, a) + FailuresOf(w, b)
    decreases |a|
  {
    if a == [] {
      assert a + b == b;
    } else {
      assert (a + b)[0] == a[0] && (a + b)[1..] == a[1..] + b;
      FailuresOfAppend(w, a[1..], b);
      var head := if w.fails(a[0]) then [CallFailed(a[0])] else [];
      assert FailuresOf(w, a + b) == head + FailuresOf(w, a[1..] + b);
      assert FailuresOf(w, a) == head + FailuresOf(w, a[1..]);
    }
  }

  /** Every failing call is collected. */
  lemma {:induction false} FailuresOfComplete(w: World, calls: seq<Effect>)
    ensures forall i :: 0 <= i < |calls| && w.fails(calls[i]) ==> CallFailed(calls[i]) in FailuresOf(w, calls)
    decreases |calls|
  {
    if calls != [] {
      FailuresOfComplete(w, calls[1..]);
      forall i | 0 <= i < |calls| && w.fails(calls[i])
        ensures CallFailed(calls[i]) in FailuresOf(w, calls)
      {
        if i > 0 {
          assert calls[i] == calls[1..][i - 1];
        }
      }
    }
  }

  /** Every call but the last succeeded, and when the last one failed its
      failure is the only error returned: the handler stops at the first
      failing call. */
  predicate FailFast(w: World, r: Run)
  {
    (forall i :: 0 <= i < |r.effects| - 1 ==> !w.fails(r.effects[i]))
    && (|r.effects| > 0 && w.fails(r.effects[|r.effects| - 1]) ==>
          r.outcome == Failed([CallFailed(r.effects[|r.effects| - 1])]))
  }

  /** A call whose error makes the handler return at once; `next` is what
      the handler does after it succeeded. */
  function Attempt(w: World, call: Effect, next: Run): (r: Run)
    ensures w.fails(call) ==> r == Run([call], Failed([CallFailed(call)]))
    ensures !w.fails(call) ==> r.effects == [call] + next.effects && r.outcome == next.outcome
    ensures FailFast(w, next) ==> FailFast(w, r)
  {
    if w.fails(call) then Run([call], Failed([CallFailed(call)]))
    else
      var r := Run([call] + next.effects, next.outcome);
      assert forall i :: 1 <= i < |r.effects| ==> r.effects[i] == next.effects[i - 1];
      r
  }

  /** The run issues `calls` in order and stops at the first one that
      fails, returning that failure alone; when every call succeeded it
      returns nil. Given `w` and `calls` this fixes the run. */
  predicate Sequenced(w: World, calls: seq<Effect>, r: Run)
  {
    |r.effects| <= |calls| && r.effects == calls[..|r.effects|] && FailFast(w, r)
    && (|r.effects| < |calls| ==> |r.effects| >= 1 && w.fails(r.effects[|r.effects| - 1]))
    && ((|r.effects| == 0 || !w.fails(r.effects[|r.effects| - 1])) ==> r.outcome == Done)
  }

  /** A fail-fast call in front of a sequenced run gives a sequenced run. */
  lemma AttemptSequenced(w: World, call: Effect, calls: seq<Effect>, next: Run)
    requires Sequenced(w, calls, next)
    ensures Sequenced(w, [call] + calls, Attempt(w, call, next))
  {
    var r := Attempt(w, call, next);
    if !w.fails(call) {
      assert r.effects == [call] + next.effects;
      assert ([call] + calls)[..|r.effects|] == [call] + calls[..|next.effects|];
      if |next.effects| > 0 {
        assert r.effects[|r.effects| - 1] == next.effects[|next.effects| - 1];
      }
    }
  }

  /** What a sequenced run says about its calls: it issues nothing else,
      and it returns nil only after issuing all of them. */
  lemma SequencedShape(w: World, calls: seq<Effect>, r: Run)
    requires Sequenced(w, calls, r)
    ensures forall e :: e in r.effects ==> e in calls
    ensures r.outcome == Done ==> r.effects == calls
  {
    forall e | e in r.effects ensures e in calls {
      var i :| 0 <= i < |r.effects| && r.effects[i] == e;
      assert calls[i] == e;
    }
  }

  /** Calls each of which ends the handler when it fails. */
  function RunSequence(w: World, calls: seq<Effect>): (r: Run)
    ensures Sequenced(w, calls, r)
    decreases |calls|
  {
    if calls == [] then Run([], Done)
    else
      var next := RunSequence(w, calls[1..]);
      AttemptSequenced(w, calls[0], calls[1..], next);
      assert [calls[0]] + calls[1..] == calls;
      Attempt(w, calls[0], next)
  }

  // ---------------------------------------------------------------------
  // shrink
  // ---------------------------------------------------------------------

  /** shrink: a text of at most `max` characters unchanged, a longer one
      cut to its first `max` characters followed by "...". */
  function Shrink(inp: string, max: nat): (r: string)
    ensures |r| <= max + 3
    ensures |inp| <= max ==> r == inp
    ensures |inp| > max ==> |r| == max + 3 && HasPrefix(inp, r[..max]) && r[max..] == "..."
  {
    if |inp| <= max then inp else inp[..max] + "..."
  }

  // ---------------------------------------------------------------------
  // MsgHandler
  // ---------------------------------------------------------------------

  const NoSpamInfo: string := "**can't get spam info**"

  /** One line per check: "- " and the escaped check text. */
  function CheckLines(w: World, checks: seq<string>): (lines: seq<string>)
    ensures |lines| == |checks|
    ensures forall i :: 0 <= i < |checks| ==> lines[i] == "- " + w.escape(checks[i])
  {
    if checks == [] then [] else ["- " + w.escape(checks[0])] + CheckLines(w, checks[1..])
  }

  /** The spam-info block: the check lines, or the "can't get spam info"
      line when there are none. */
  function SpamInfoText(w: World, checks: seq<string>): (s: string)
    ensures s == NoSpamInfo <==> |checks| == 0
  {
    if |checks| == 0 then NoSpamInfo
    else
      var lines := CheckLines(w, checks);
      JoinStartsWithFirst(lines, '\n');
      assert Join(lines, '\n')[0] == '-';
      Join(lines, '\n')
  }

  /** The block holds one line per check, in order, as long as no escaped
      check text holds a newline of its own. */
  lemma SpamInfoLines(w: World, checks: seq<string>)
    requires |checks| > 0
    requires forall i :: 0 <= i < |checks| ==> '\n' !in w.escape(checks[i])
    ensures Split(SpamInfoText(w, checks), '\n') == CheckLines(w, checks)
  {
    var lines := CheckLines(w, checks);
    forall i | 0 <= i < |lines| ensures '\n' !in lines[i] {
      assert lines[i] == "- " + w.escape(checks[i]);
    }
    SplitJoin(lines, '\n');
  }

  /** The detection-results message MsgHandler posts in the admin chat. */
  function DetectionReport(w: World, info: MsgInfo, spamInfo: string): string
  {
    "**original detection results for " + w.quote(info.userName) + " (" + FormatInt(info.userID)
      + ")**\n\n" + spamInfo + "\n\n\n*the user banned and message deleted*"
  }

  predicate Forwarded(m: AdminMessage)
  {
    m.forwardSenderName != "" || m.forwardedFrom
  }

  /** superUsers.IsSuper on a non-empty name. */
  predicate IsSuperName(w: World, name: string)
  {
    name != "" && w.isSuper(name)
  }

  /** The calls MsgHandler makes once the forwarded message is located
      and its author is no super-user, in the order it makes them. */
  function SpamCalls(cfg: Config, w: World, text: string, info: MsgInfo): seq<Effect>
  {
    [ RemoveApprovedUser(info.userID),
      SendMessage(cfg.adminChatID, DetectionReport(w, info, SpamInfoText(w, w.checks(text, info.userID))), [], false),
      UpdateSpam(text),
      DeleteMessage(cfg.primChatID, info.msgID),
      Ban(BanRequest(info.userID, cfg.primChatID, cfg.dry, cfg.trainingMode)) ]
  }

  /** MsgHandler: a message forwarded to the admin chat is spam the bot
      missed. Its author is found through the locator, removed from the
      approved users, reported, the text is learned as spam, the original
      message is deleted and the author banned. */
  function MsgHandler(cfg: Config, w: World, m: AdminMessage): (r: Run)
    // a message typed in the admin chat, not forwarded, is ignored
    ensures !Forwarded(m) ==> r == Run([], Done)
    // nothing is done about a message the locator does not know
    ensures Forwarded(m) && w.locate(m.text).None? ==> r == Run([], Failed([NotInLocator(Shrink(m.text, 50))]))
    // nor about a super-user's message
    ensures Forwarded(m) && w.locate(m.text).Some? && IsSuperName(w, w.locate(m.text).value.userName) ==>
      r.effects == [] && r.outcome.Failed?
    // otherwise the calls are a prefix of SpamCalls of length 2, 3 or 5
    ensures r.effects != [] ==>
      Forwarded(m) && w.locate(m.text).Some? && !IsSuperName(w, w.locate(m.text).value.userName)
      && var calls := SpamCalls(cfg, w, m.text, w.locate(m.text).value);
         (|r.effects| == 2 || |r.effects| == 3 || |r.effects| == 5) && r.effects == calls[..|r.effects|]
    // a located message of an ordinary user runs the calls: two in dry
    // mode, up to the failing UpdateSpam, or all five
    ensures Forwarded(m) && w.locate(m.text).Some? && !IsSuperName(w, w.locate(m.text).value.userName) ==>
      var calls := SpamCalls(cfg, w, m.text, w.locate(m.text).value);
      (cfg.dry ==> r.effects == calls[..2])
      && (!cfg.dry && w.fails(calls[2]) ==> r.effects == calls[..3])
      && (!cfg.dry && !w.fails(calls[2]) ==> r.effects == calls)
    ensures |r.effects| >= 3 ==> (|r.effects| == 3 <==> w.fails(r.effects[2]))
    // dry mode: nothing after the detection report
    ensures cfg.dry ==> |r.effects| <= 2
    ensures r.effects != [] && !cfg.dry ==> |r.effects| >= 3
    // a failed UpdateSpam returns at once, dropping the errors so far
    ensures |r.effects| == 3 ==> w.fails(r.effects[2]) && r.outcome == Failed([CallFailed(r.effects[2])])
    // every other failure is collected and the run goes on
    ensures |r.effects| != 3 && r.effects != [] ==> r.outcome == Collected(FailuresOf(w, r.effects))
    // the ban is never a dry one and keeps the training flag
    ensures |r.effects| == 5 ==>
      r.effects[4].request.dry == false && r.effects[4].request.training == cfg.trainingMode
  {
    if !Forwarded(m) then Run([], Done)
    else match w.locate(m.text)
      case None => Run([], Failed([NotInLocator(Shrink(m.text, 50))]))
      case Some(info) =>
        if IsSuperName(w, info.userName) then Run([], Failed([SuperUserMessage(info.userName, info.userID)]))
        else RunSpamCalls(w, cfg.dry, SpamCalls(cfg, w, m.text, info))
  }

  /** MsgHandler from RemoveApprovedUser on, over its five calls: the
      first two always, then in dry mode nothing more; otherwise
      UpdateSpam, whose failure ends the run with that error alone, then
      the delete and the ban. Failures of the other four are collected. */
  function RunSpamCalls(w: World, dry: bool, calls: seq<Effect>): (r: Run)
    requires |calls| == 5
    ensures (|r.effects| == 2 || |r.effects| == 3 || |r.effects| == 5) && r.effects == calls[..|r.effects|]
    ensures dry <==> |r.effects| == 2
    ensures |r.effects| == 3 <==> !dry && w.fails(calls[2])
    ensures |r.effects| == 3 ==> r.outcome == Failed([CallFailed(calls[2])])
    ensures |r.effects| != 3 ==> r.outcome == Collected(FailuresOf(w, r.effects))
  {
    if dry then
      Run(calls[..2], Collected(FailuresOf(w, calls[..2])))
    else if w.fails(calls[2]) then
      Run(calls[..3], Failed([CallFailed(calls[2])]))
    else
      var errs := FailuresOf(w, calls[..2]) + FailuresOf(w, calls[3..]);
      FailuresSkipSuccess(w, calls[..2], calls[2], calls[3..]);
      assert calls[..2] + [calls[2]] + calls[3..] == calls;
      Run(calls, Collected(errs))
  }

  /** A succeeding call adds no failure. */
  lemma {:induction false} FailuresSkipSuccess(w: World, before: seq<Effect>, call: Effect, after: seq<Effect>)
    requires !w.fails(call)
    ensures FailuresOf(w, before + [call] + after) == FailuresOf(w, before) + FailuresOf(w, after)
    decreases |before|
  {
    if before == [] {
      assert before + [call] + after == [call] + after;
      assert ([call] + after)[1..] == after;
    } else {
      assert (before + [call] + after)[1..] == before[1..] + [call] + after;
      FailuresSkipSuccess(w, before[1..], call, after);
    }
  }

  // ---------------------------------------------------------------------
  // Ban reports and their buttons
  // ---------------------------------------------------------------------

  /** A message the bot banned its author for. */
  datatype SpamMessage = SpamMessage(text: string, fromID: int, id: int)

  /** sendWithUnbanMarkup's keyboard: one row, the action button with the
      payload "?userID:msgID" and the info button with "!userID:msgID". */
  function UnbanMarkup(action: string, userID: int, msgID: int): Keyboard
  {
    [[Button("\U{26D4}\U{FE0E} " + action, Encode(AskConfirm, userID, msgID)),
      Button("\U{FE0F}\U{2691} info", Encode(ShowInfo, userID, msgID))]]
  }

  /** ReportBan: the ban report goes to the admin chat, in markdown, with
      the "change ban" and "info" buttons. A failed send is only logged. */
  function ReportBan(cfg: Config, w: World, banUserStr: string, msg: SpamMessage): (r: Run)
    ensures r.outcome == Done && |r.effects| == 1 && r.effects[0].SendMessage?
    ensures r.effects[0].chatID == cfg.adminChatID && r.effects[0].markdown
    // the report names the banned user the way extractUsername reads it
    ensures ']' !in banUserStr && '\n' !in banUserStr && msg.fromID >= 0 ==>
      ExtractUsername(r.effects[0].text) == Success(banUserStr)
    // the header line, a blank line, then the escaped spam text on one line
    ensures '\n' !in banUserStr ==>
      Lines(r.effects[0].text)
        == [BannedHead + banUserStr + LinkOpen + FormatInt(msg.fromID) + ")**", "",
            ReplaceChar(w.escape(msg.text), '\n', ' '), "", ""]
    // both buttons carry the user and message ids
    ensures |r.effects[0].keyboard| == 1 && |r.effects[0].keyboard[0]| == 2
    // the first button asks for confirmation, the second shows the info
    ensures ActionOf(r.effects[0].keyboard[0][0].data) == AskConfirm
    ensures ActionOf(r.effects[0].keyboard[0][1].data) == ShowInfo
    ensures IsInt64(msg.fromID) && IsInt64(msg.id) ==>
      forall b :: b in r.effects[0].keyboard[0] ==> ParseCallbackData(b.data) == Success(Ids(msg.fromID, msg.id))
  {
    var text := BanReportText(banUserStr, msg.fromID, w.escape(msg.text));
    var kb := UnbanMarkup("change ban", msg.fromID, msg.id);
    ReportFacts(banUserStr, msg, w.escape(msg.text));
    UnbanMarkupButtons("change ban", msg.fromID, msg.id);
    Run([SendMessage(cfg.adminChatID, text, kb, true)], Done)
  }

  lemma ReportFacts(banUserStr: string, msg: SpamMessage, escaped: string)
    ensures ']' !in banUserStr && '\n' !in banUserStr && msg.fromID >= 0 ==>
      ExtractUsername(BanReportText(banUserStr, msg.fromID, escaped)) == Success(banUserStr)
    ensures '\n' !in banUserStr ==>
      Lines(BanReportText(banUserStr, msg.fromID, escaped))
        == [BannedHead + banUserStr + LinkOpen + FormatInt(msg.fromID) + ")**", "",
            ReplaceChar(escaped, '\n', ' '), "", ""]
  {
    if ']' !in banUserStr && '\n' !in banUserStr && msg.fromID >= 0 {
      ReportNamesUser(banUserStr, msg.fromID, escaped);
    }
    if '\n' !in banUserStr {
      ReportLines(banUserStr, msg.fromID, escaped);
    }
  }

  /** The ban report, line by line: the header naming the user, a blank
      line, the spam text flattened onto one line, and two empty lines.
      The flattened text sits where getCleanMessage starts reading. */
  lemma ReportLines(name: string, userID: int, escaped: string)
    requires '\n' !in name
    ensures Lines(BanReportText(name, userID, escaped)) ==
      [BannedHead + name + LinkOpen + FormatInt(userID) + ")**", "", ReplaceChar(escaped, '\n', ' '), "", ""]
  {
    var head := BannedHead + name + LinkOpen + FormatInt(userID) + ")**";
    var flat := ReplaceChar(escaped, '\n', ' ');
    ReportPartsOneLine(name, userID, escaped);
    ReportTextParts(name, userID, escaped);
    ReportSplit(head, flat);
  }

  lemma ReportTextParts(name: string, userID: int, escaped: string)
    ensures BanReportText(name, userID, escaped)
      == (BannedHead + name + LinkOpen + FormatInt(userID) + ")**") + "\n\n" + ReplaceChar(escaped, '\n', ' ') + "\n\n"
  {
    assert ")**\n\n" == ")**" + "\n\n";
    Regroup(BannedHead, name, LinkOpen, FormatInt(userID), ")**", "\n\n", ReplaceChar(escaped, '\n', ' '));
  }

  lemma Regroup<T>(h: seq<T>, n: seq<T>, o: seq<T>, d: seq<T>, c: seq<T>, nl: seq<T>, f: seq<T>)
    ensures h + n + (o + d + (c + nl) + f + nl) == (h + n + o + d + c) + nl + f + nl
  {
  }

  lemma ReportSplit(head: string, flat: string)
    requires '\n' !in head && '\n' !in flat
    ensures Lines(head + "\n\n" + flat + "\n\n") == [head, "", flat, "", ""]
  {
    ReportJoined(head, flat);
    SplitJoin([head, "", flat, "", ""], '\n');
  }

  lemma ReportPartsOneLine(name: string, userID: int, escaped: string)
    requires '\n' !in name
    ensures '\n' !in BannedHead + name + LinkOpen + FormatInt(userID) + ")**"
    ensures '\n' !in ReplaceChar(escaped, '\n', ' ')
  {
    FormatIntOneLine(userID);
    ReportConstantsOneLine();
    FlatOneLine(escaped);
  }

  lemma ReportConstantsOneLine()
    ensures '\n' !in BannedHead && '\n' !in LinkOpen && '\n' !in ")**"
  {
  }

  lemma FormatIntOneLine(n: int)
    ensures '\n' !in FormatInt(n)
  {
    if n < 0 {
      assert FormatInt(n) == "-" + FormatNat(-n);
    }
  }

  lemma FlatOneLine(s: string)
    ensures '\n' !in ReplaceChar(s, '\n', ' ')
  {
    var flat := ReplaceChar(s, '\n', ' ');
    forall i | 0 <= i < |flat| ensures flat[i] != '\n' { }
  }

  lemma ReportJoined(head: string, flat: string)
    ensures Join([head, "", flat, "", ""], '\n') == head + "\n\n" + flat + "\n\n"
  {
    assert Join(["", ""], '\n') == "\n";
    assert Join([flat, "", ""], '\n') == flat + "\n\n";
    assert Join(["", flat, "", ""], '\n') == "\n" + flat + "\n\n";
  }

  /** The report's buttons: ask-confirm first, info second, both carrying
      the user and message ids. */
  lemma UnbanMarkupButtons(action: string, userID: int, msgID: int)
    ensures ActionOf(UnbanMarkup(action, userID, msgID)[0][0].data) == AskConfirm
    ensures ActionOf(UnbanMarkup(action, userID, msgID)[0][1].data) == ShowInfo
    ensures IsInt64(userID) && IsInt64(msgID) ==>
      forall b :: b in UnbanMarkup(action, userID, msgID)[0] ==> ParseCallbackData(b.data) == Success(Ids(userID, msgID))
  {
    var row := UnbanMarkup(action, userID, msgID)[0];
    UnbanMarkupRow(action, userID, msgID);
    EncodedButton(AskConfirm, userID, msgID);
    EncodedButton(ShowInfo, userID, msgID);
    if IsInt64(userID) && IsInt64(msgID) {
      PairAll(row, (b: Button) => ParseCallbackData(b.data), Success(Ids(userID, msgID)));
    }
  }

  /** What holds of both elements of a pair holds of every element. */
  lemma PairAll<T, U>(row: seq<T>, f: T -> U, v: U)
    requires |row| == 2 && f(row[0]) == v && f(row[1]) == v
    ensures forall b :: b in row ==> f(b) == v
  {
    assert row == [row[0], row[1]];
  }

  lemma UnbanMarkupRow(action: string, userID: int, msgID: int)
    ensures |UnbanMarkup(action, userID, msgID)| == 1 && |UnbanMarkup(action, userID, msgID)[0]| == 2
    ensures UnbanMarkup(action, userID, msgID)[0][0].data == Encode(AskConfirm, userID, msgID)
    ensures UnbanMarkup(action, userID, msgID)[0][1].data == Encode(ShowInfo, userID, msgID)
  {
  }

  /** A payload the bot encodes names its action and, for int64 ids,
      parses back to them. */
  lemma EncodedButton(a: Action, userID: int, msgID: int)
    ensures ActionOf(Encode(a, userID, msgID)) == a
    ensures IsInt64(userID) && IsInt64(msgID) ==> ParseCallbackData(Encode(a, userID, msgID)) == Success(Ids(userID, msgID))
  {
    EncodedAction(a, userID, msgID);
    if IsInt64(userID) && IsInt64(msgID) {
      PayloadRoundTrip(a, userID, msgID);
    }
  }

  // ---------------------------------------------------------------------
  // Callback dispatch
  // ---------------------------------------------------------------------

  /** InlineCallbackHandler: presses in other chats are ignored; in the
      admin chat the payload's first character selects the handler:
      `?` ask for confirmation, `+` ban confirmed, `!` show the spam
      info, anything else (also an empty payload) unban. */
  function InlineCallbackHandler(cfg: Config, w: World, q: Query): (r: Run)
    ensures q.chatID != cfg.adminChatID ==> r == Run([], Done)
    ensures q.chatID == cfg.adminChatID && |q.data| >= 1 ==>
      (q.data[0] == '?' ==> r == CallbackAskBanConfirmation(cfg, w, q))
      && (q.data[0] == '+' ==> r == CallbackBanConfirmed(cfg, w, q))
      && (q.data[0] == '!' ==> r == CallbackShowInfo(cfg, w, q))
    ensures q.chatID == cfg.adminChatID && (|q.data| == 0 || q.data[0] !in "?+!") ==>
      r == CallbackUnbanConfirmed(cfg, w, q)
  {
    if q.chatID != cfg.adminChatID then Run([], Done)
    else match ActionOf(q.data)
      case AskConfirm => CallbackAskBanConfirmation(cfg, w, q)
      case ConfirmBan => CallbackBanConfirmed(cfg, w, q)
      case ShowInfo => CallbackShowInfo(cfg, w, q)
      case Unban => CallbackUnbanConfirmed(cfg, w, q)
  }

  /** Pressing a button whose payload the bot encoded for action `a`
      reaches that action's handler, which reads back the same ids. */
  lemma PressDispatch(cfg: Config, w: World, q: Query, a: Action, userID: int, msgID: int)
    requires q.chatID == cfg.adminChatID && q.data == Encode(a, userID, msgID)
    requires IsInt64(userID) && IsInt64(msgID)
    ensures ParseCallbackData(q.data) == Success(Ids(userID, msgID))
    ensures InlineCallbackHandler(cfg, w, q) ==
      match a
      case AskConfirm => CallbackAskBanConfirmation(cfg, w, q)
      case ConfirmBan => CallbackBanConfirmed(cfg, w, q)
      case ShowInfo => CallbackShowInfo(cfg, w, q)
      case Unban => CallbackUnbanConfirmed(cfg, w, q)
  {
    EncodedAction(a, userID, msgID);
    PayloadRoundTrip(a, userID, msgID);
  }

  // ---------------------------------------------------------------------
  // callbackAskBanConfirmation
  // ---------------------------------------------------------------------

  /** The keyboard that replaces the report's buttons: "Unban for real"
      with the payload stripped of its `?`, and "Keep it banned" ("Confirm
      ban" in training mode) with `+` in its place. */
  function ConfirmationKeyboard(data: string, training: bool): Keyboard
    requires |data| >= 1
  {
    [[Button("Unban for real", data[1..]),
      Button(if training then "Confirm ban" else "Keep it banned", "+" + data[1..])]]
  }

  /** The confirmation keyboard built for a report's "?userID:msgID"
      button holds the unban payload and the ban-confirmed payload for the
      same user and message. */
  lemma ConfirmationButtons(userID: int, msgID: int, training: bool)
    requires IsInt64(userID) && IsInt64(msgID)
    ensures var kb := ConfirmationKeyboard(Encode(AskConfirm, userID, msgID), training);
      |kb| == 1 && |kb[0]| == 2
      && kb[0][0].data == Encode(Unban, userID, msgID)
      && kb[0][1].data == Encode(ConfirmBan, userID, msgID)
      && ParseCallbackData(kb[0][0].data) == Success(Ids(userID, msgID))
      && ParseCallbackData(kb[0][1].data) == Success(Ids(userID, msgID))
  {
    AskPayloadRewrites(userID, msgID);
    PayloadRoundTrip(Unban, userID, msgID);
    PayloadRoundTrip(ConfirmBan, userID, msgID);
  }

  /** callbackAskBanConfirmation: swap the pressed message's keyboard for
      the confirmation keyboard. */
  function CallbackAskBanConfirmation(cfg: Config, w: World, q: Query): (r: Run)
    requires |q.data| >= 1
    ensures r.effects == [EditMarkup(q.chatID, q.messageID, ConfirmationKeyboard(q.data, cfg.trainingMode))]
    ensures FailFast(w, r) && (r.outcome == Done <==> !w.fails(r.effects[0]))
  {
    Attempt(w, EditMarkup(q.chatID, q.messageID, ConfirmationKeyboard(q.data, cfg.trainingMode)), Run([], Done))
  }

  // ---------------------------------------------------------------------
  // callbackBanConfirmed and deleteAndBan
  // ---------------------------------------------------------------------

  /** The pressed message's text with "_<what> by <who> in <elapsed>_"
      appended after a blank line. */
  function Annotated(q: Query, what: string): string
  {
    q.text + "\n\n_" + what + " by " + q.fromUserName + " in " + q.elapsed + "_"
  }

  /** The last edit of a confirmed report: the annotated text, no keyboard. */
  function ClosingEdit(q: Query, what: string): Effect
  {
    EditText(q.chatID, q.messageID, Annotated(q, what), [], false)
  }

  /** callbackBanConfirmed: mark the report as confirmed and drop its
      keyboard, learn the original text as spam, and in training mode only
      delete the message and ban its author for real. */
  function CallbackBanConfirmed(cfg: Config, w: World, q: Query): (r: Run)
    ensures |r.effects| >= 1 && r.effects[0] == ClosingEdit(q, "ban confirmed")
    // a failed edit ends the run
    ensures w.fails(ClosingEdit(q, "ban confirmed")) ==>
      r == Run([ClosingEdit(q, "ban confirmed")], Failed([CallFailed(ClosingEdit(q, "ban confirmed"))]))
    // a report that is not laid out as expected ends it after the edit
    ensures !w.fails(ClosingEdit(q, "ban confirmed")) && GetCleanMessage(q.text) == TooFewLines ==>
      r == Run([ClosingEdit(q, "ban confirmed")], Failed([UnexpectedAdminText(q.text)]))
    ensures !w.fails(ClosingEdit(q, "ban confirmed")) && GetCleanMessage(q.text).MarkerTooEarly? ==>
      r == Run([ClosingEdit(q, "ban confirmed")], Panicked)
    // otherwise the clean text is learned as spam, second
    ensures !w.fails(ClosingEdit(q, "ban confirmed")) && GetCleanMessage(q.text).Clean? ==>
      |r.effects| >= 2 && r.effects[1] == UpdateSpam(GetCleanMessage(q.text).body)
      && (w.fails(r.effects[1]) ==> r == Run(r.effects[..2], Failed([CallFailed(r.effects[1])])))
    // once learned: a bad payload is the error, outside training mode the
    // run returns nil, in training mode deleteAndBan follows
    ensures |r.effects| >= 2 && !w.fails(r.effects[0]) && r.effects[1].UpdateSpam? && !w.fails(r.effects[1]) ==>
      (ParseCallbackData(q.data).Failure? ==>
         r == Run(r.effects[..2], Failed([BadCallbackData(q.data, ParseCallbackData(q.data).error)])))
      && (ParseCallbackData(q.data).Success? && !cfg.trainingMode ==> r == Run(r.effects[..2], Done))
    ensures forall i :: 0 <= i < |r.effects| && r.effects[i].UpdateSpam? ==>
      i == 1 && GetCleanMessage(q.text) == Clean(r.effects[i].text)
    ensures !cfg.trainingMode ==> |r.effects| <= 2
    ensures ParseCallbackData(q.data).Failure? ==> |r.effects| <= 2 && r.outcome != Done
    ensures (cfg.trainingMode && |r.effects| >= 2 && !w.fails(r.effects[0]) && !w.fails(r.effects[1])
             && ParseCallbackData(q.data).Success?) ==>
      var ids := ParseCallbackData(q.data).value;
      var d := DeleteAndBan(cfg, w, ids.userID, ids.msgID);
      r.effects[2..] == d.effects && r.outcome == d.outcome
  {
    BanConfirmedWith(cfg, w, q, GetCleanMessage(q.text), ParseCallbackData(q.data))
  }

  /** callbackBanConfirmed given the report's clean text and the parsed
      payload. */
  function BanConfirmedWith(cfg: Config, w: World, q: Query, clean: CleanResult, parsed: Result<Ids, ParseError>): (r: Run)
    ensures |r.effects| >= 1 && r.effects[0] == ClosingEdit(q, "ban confirmed")
    ensures w.fails(ClosingEdit(q, "ban confirmed")) ==>
      r == Run([ClosingEdit(q, "ban confirmed")], Failed([CallFailed(ClosingEdit(q, "ban confirmed"))]))
    ensures !w.fails(ClosingEdit(q, "ban confirmed")) && clean == TooFewLines ==>
      r == Run([ClosingEdit(q, "ban confirmed")], Failed([UnexpectedAdminText(q.text)]))
    ensures !w.fails(ClosingEdit(q, "ban confirmed")) && clean.MarkerTooEarly? ==>
      r == Run([ClosingEdit(q, "ban confirmed")], Panicked)
    ensures !w.fails(ClosingEdit(q, "ban confirmed")) && clean.Clean? ==>
      |r.effects| >= 2 && r.effects[1] == UpdateSpam(clean.body)
      && (w.fails(r.effects[1]) ==> r == Run(r.effects[..2], Failed([CallFailed(r.effects[1])])))
    ensures |r.effects| >= 2 && !w.fails(r.effects[0]) && r.effects[1].UpdateSpam? && !w.fails(r.effects[1]) ==>
      (parsed.Failure? ==>
         r == Run(r.effects[..2], Failed([BadCallbackData(q.data, parsed.error)])))
      && (parsed.Success? && !cfg.trainingMode ==> r == Run(r.effects[..2], Done))
    ensures forall i :: 0 <= i < |r.effects| && r.effects[i].UpdateSpam? ==>
      i == 1 && clean == Clean(r.effects[i].text)
    ensures !cfg.trainingMode ==> |r.effects| <= 2
    ensures parsed.Failure? ==> |r.effects| <= 2 && r.outcome != Done
    ensures (cfg.trainingMode && |r.effects| >= 2 && !w.fails(r.effects[0]) && !w.fails(r.effects[1])
             && parsed.Success?) ==>
      var ids := parsed.value;
      var d := DeleteAndBan(cfg, w, ids.userID, ids.msgID);
      r.effects[2..] == d.effects && r.outcome == d.outcome
  {
    var rest := LearnConfirmedSpam(cfg, w, q, clean, parsed);
    var r := Attempt(w, ClosingEdit(q, "ban confirmed"), rest);
    assert !w.fails(r.effects[0]) ==> r.effects[1..] == rest.effects;
    assert |r.effects| >= 2 ==> r.effects[..2] == [r.effects[0], r.effects[1]];
    r
  }

  /** callbackBanConfirmed after the edit, given the report's clean text
      and the parsed payload. */
  function LearnConfirmedSpam(cfg: Config, w: World, q: Query, clean: CleanResult, parsed: Result<Ids, ParseError>): (r: Run)
    ensures clean == TooFewLines ==> r == Run([], Failed([UnexpectedAdminText(q.text)]))
    ensures clean.MarkerTooEarly? ==> r == Run([], Panicked)
    ensures clean.Clean? ==>
      |r.effects| >= 1 && r.effects[0] == UpdateSpam(clean.body)
      && (w.fails(r.effects[0]) ==> r == Run([r.effects[0]], Failed([CallFailed(r.effects[0])])))
    ensures clean.Clean? && !w.fails(UpdateSpam(clean.body)) ==>
      (parsed.Failure? ==> r == Run([UpdateSpam(clean.body)], Failed([BadCallbackData(q.data, parsed.error)])))
      && (parsed.Success? && !cfg.trainingMode ==> r == Run([UpdateSpam(clean.body)], Done))
    ensures forall i :: 0 <= i < |r.effects| && r.effects[i].UpdateSpam? ==> i == 0 && clean == Clean(r.effects[i].text)
    ensures !cfg.trainingMode ==> |r.effects| <= 1
    ensures parsed.Failure? ==> |r.effects| <= 1 && r.outcome != Done
    ensures (cfg.trainingMode && |r.effects| >= 1 && !w.fails(r.effects[0]) && parsed.Success?) ==>
      var d := DeleteAndBan(cfg, w, parsed.value.userID, parsed.value.msgID);
      r.effects[1..] == d.effects && r.outcome == d.outcome
  {
    match clean
    case TooFewLines => Run([], Failed([UnexpectedAdminText(q.text)]))
    case MarkerTooEarly(_) => Run([], Panicked)
    case Clean(body) =>
      var rest := BanIfTraining(cfg, w, q, parsed);
      var r := Attempt(w, UpdateSpam(body), rest);
      assert !w.fails(r.effects[0]) ==> r.effects[1..] == rest.effects;
      r
  }

  /** callbackBanConfirmed after learning the spam sample. */
  function BanIfTraining(cfg: Config, w: World, q: Query, parsed: Result<Ids, ParseError>): (r: Run)
    ensures forall e :: e in r.effects ==> e.Ban? || e.DeleteMessage?
    ensures parsed.Failure? ==> r == Run([], Failed([BadCallbackData(q.data, parsed.error)]))
    ensures !cfg.trainingMode && parsed.Success? ==> r == Run([], Done)
    ensures cfg.trainingMode && parsed.Success? ==> r == DeleteAndBan(cfg, w, parsed.value.userID, parsed.value.msgID)
  {
    match parsed
    case Failure(e) => Run([], Failed([BadCallbackData(q.data, e)]))
    case Success(ids) =>
      if cfg.trainingMode then DeleteAndBan(cfg, w, ids.userID, ids.msgID) else Run([], Done)
  }

  /** deleteAndBan: ban the author unless a super-user, then delete the
      message whoever wrote it. */
  function DeleteAndBan(cfg: Config, w: World, userID: int, msgID: int): (r: Run)
    // the delete is always attempted, last
    ensures 1 <= |r.effects| <= 2 && r.effects[|r.effects| - 1] == DeleteMessage(cfg.primChatID, msgID)
    // a super-user is not banned
    ensures IsSuperName(w, w.userNameByID(userID)) <==> |r.effects| == 1
    // the ban is a real one, never a training one, and keeps the dry flag
    ensures |r.effects| == 2 ==> r.effects[0] == Ban(BanRequest(userID, cfg.primChatID, cfg.dry, false))
    ensures forall e :: e in r.effects ==> e == Ban(BanRequest(userID, cfg.primChatID, cfg.dry, false)) || e.DeleteMessage?
    // a failed delete is the error, in place of a failed ban
    ensures w.fails(r.effects[|r.effects| - 1]) ==> r.outcome == Failed([CallFailed(r.effects[|r.effects| - 1])])
    ensures !w.fails(r.effects[|r.effects| - 1]) ==> r.outcome == Collected(FailuresOf(w, r.effects))
  {
    var ban := Ban(BanRequest(userID, cfg.primChatID, cfg.dry, false));
    var del := DeleteMessage(cfg.primChatID, msgID);
    var banCalls := if IsSuperName(w, w.userNameByID(userID)) then [] else [ban];
    var errs := FailuresOf(w, banCalls);
    if w.fails(del) then Run(banCalls + [del], Failed([CallFailed(del)]))
    else
      FailuresSkipSuccess(w, banCalls, del, []);
      assert banCalls + [del] + [] == banCalls + [del];
      Run(banCalls + [del], Collected(errs))
  }

  // ---------------------------------------------------------------------
  // callbackUnbanConfirmed
  // ---------------------------------------------------------------------

  /** The name the unbanned user is approved under: what extractUsername
      finds in the report, or the empty name. */
  function ApprovedName(text: string): (name: string)
    ensures ExtractUsername(text).Success? ==> name == ExtractUsername(text).value
    ensures ExtractUsername(text).Failure? ==> name == ""
  {
    match ExtractUsername(text)
    case Success(n) => n
    case Failure(_) => ""
  }

  /** The calls callbackUnbanConfirmed makes once the ham sample is
      learned: lift the ban (not in training mode, where there is none),
      approve the user, mark the report as unbanned. */
  function UnbanCalls(cfg: Config, q: Query, userID: int): seq<Effect>
  {
    (if cfg.trainingMode then [] else [UnbanMember(cfg.primChatID, userID)])
      + [AddApprovedUser(userID, ApprovedName(q.text)), ClosingEdit(q, "unbanned")]
  }

  /** The unbanned user is approved under the very name the ban report
      gave them. */
  lemma ReportApprovedName(name: string, userID: int, escaped: string)
    requires ']' !in name && '\n' !in name && userID >= 0
    ensures ApprovedName(BanReportText(name, userID, escaped)) == name
  {
    ReportNamesUser(name, userID, escaped);
  }

  /** callbackUnbanConfirmed: answer the press, read the payload, learn the
      report's clean text as ham, then the UnbanCalls. The first failure
      ends it. */
  function CallbackUnbanConfirmed(cfg: Config, w: World, q: Query): (r: Run)
    ensures FailFast(w, r)
    ensures |r.effects| >= 1 && r.effects[0] == AnswerCallback(q.id, "accepted")
    // the answer's failure, a bad payload or a report not laid out as
    // expected each end the run right after the answer
    ensures w.fails(AnswerCallback(q.id, "accepted")) ==> r.effects == [AnswerCallback(q.id, "accepted")]
    ensures !w.fails(AnswerCallback(q.id, "accepted")) && ParseCallbackData(q.data).Failure? ==>
      r == Run([AnswerCallback(q.id, "accepted")], Failed([BadCallbackData(q.data, ParseCallbackData(q.data).error)]))
    ensures !w.fails(AnswerCallback(q.id, "accepted")) && ParseCallbackData(q.data).Success?
            && GetCleanMessage(q.text) == TooFewLines ==>
      r == Run([AnswerCallback(q.id, "accepted")], Failed([UnexpectedAdminText(q.text)]))
    ensures !w.fails(AnswerCallback(q.id, "accepted")) && ParseCallbackData(q.data).Success?
            && GetCleanMessage(q.text).MarkerTooEarly? ==>
      r == Run([AnswerCallback(q.id, "accepted")], Panicked)
    // otherwise: answer, ham, unban, approve, edit, stopping at the first failure
    ensures ParseCallbackData(q.data).Success? && GetCleanMessage(q.text).Clean? ==>
      Sequenced(w, [AnswerCallback(q.id, "accepted"), UpdateHam(GetCleanMessage(q.text).body)]
                   + UnbanCalls(cfg, q, ParseCallbackData(q.data).value.userID), r)
    ensures ParseCallbackData(q.data).Failure? ==> |r.effects| == 1 && r.outcome != Done
    ensures forall e :: e in r.effects && e.UnbanMember? ==>
      !cfg.trainingMode && ParseCallbackData(q.data).Success?
      && e == UnbanMember(cfg.primChatID, ParseCallbackData(q.data).value.userID)
    ensures forall e :: e in r.effects && e.AddApprovedUser? ==>
      ParseCallbackData(q.data).Success?
      && e == AddApprovedUser(ParseCallbackData(q.data).value.userID, ApprovedName(q.text))
    ensures r.outcome == Done ==>
      |r.effects| == (if cfg.trainingMode then 4 else 5)
      && r.effects[1].UpdateHam? && GetCleanMessage(q.text) == Clean(r.effects[1].text)
      && r.effects[|r.effects| - 1] == ClosingEdit(q, "unbanned")
  {
    UnbanAnsweredShape(cfg, w, q, ParseCallbackData(q.data), GetCleanMessage(q.text));
    UnbanAnswered(cfg, w, q, ParseCallbackData(q.data), GetCleanMessage(q.text))
  }

  /** callbackUnbanConfirmed from the answer on, given the parsed payload
      and the report's clean text. */
  function UnbanAnswered(cfg: Config, w: World, q: Query, parsed: Result<Ids, ParseError>, clean: CleanResult): (r: Run)
    ensures FailFast(w, r)
    ensures |r.effects| >= 1 && r.effects[0] == AnswerCallback(q.id, "accepted")
    ensures w.fails(AnswerCallback(q.id, "accepted")) ==> r.effects == [AnswerCallback(q.id, "accepted")]
    ensures !w.fails(AnswerCallback(q.id, "accepted")) && parsed.Failure? ==>
      r == Run([AnswerCallback(q.id, "accepted")], Failed([BadCallbackData(q.data, parsed.error)]))
    ensures !w.fails(AnswerCallback(q.id, "accepted")) && parsed.Success? && clean == TooFewLines ==>
      r == Run([AnswerCallback(q.id, "accepted")], Failed([UnexpectedAdminText(q.text)]))
    ensures !w.fails(AnswerCallback(q.id, "accepted")) && parsed.Success? && clean.MarkerTooEarly? ==>
      r == Run([AnswerCallback(q.id, "accepted")], Panicked)
    ensures parsed.Success? && clean.Clean? ==>
      Sequenced(w, [AnswerCallback(q.id, "accepted"), UpdateHam(clean.body)]
                   + UnbanCalls(cfg, q, parsed.value.userID), r)
  {
    var rest := UnbanParsed(cfg, w, q, parsed, clean);
    var r := Attempt(w, AnswerCallback(q.id, "accepted"), rest);
    assert !w.fails(r.effects[0]) ==> r.effects[1..] == rest.effects;
    if parsed.Success? && clean.Clean? then
      var calls := [UpdateHam(clean.body)] + UnbanCalls(cfg, q, parsed.value.userID);
      AttemptSequenced(w, AnswerCallback(q.id, "accepted"), calls, rest);
      assert [AnswerCallback(q.id, "accepted")] + calls
        == [AnswerCallback(q.id, "accepted"), UpdateHam(clean.body)] + UnbanCalls(cfg, q, parsed.value.userID);
      r
    else r
  }

  /** What the exact trace of UnbanAnswered implies: only the payload's
      user is unbanned and approved, and a completed run made every call. */
  lemma UnbanAnsweredShape(cfg: Config, w: World, q: Query, parsed: Result<Ids, ParseError>, clean: CleanResult)
    ensures var r := UnbanAnswered(cfg, w, q, parsed, clean);
      parsed.Failure? ==> |r.effects| == 1 && r.outcome != Done
    ensures var r := UnbanAnswered(cfg, w, q, parsed, clean);
      forall e :: e in r.effects && e.UnbanMember? ==>
        !cfg.trainingMode && parsed.Success? && e == UnbanMember(cfg.primChatID, parsed.value.userID)
    ensures var r := UnbanAnswered(cfg, w, q, parsed, clean);
      forall e :: e in r.effects && e.AddApprovedUser? ==>
        parsed.Success? && e == AddApprovedUser(parsed.value.userID, ApprovedName(q.text))
    ensures var r := UnbanAnswered(cfg, w, q, parsed, clean);
      r.outcome == Done ==>
        |r.effects| == (if cfg.trainingMode then 4 else 5)
        && r.effects[1].UpdateHam? && clean == Clean(r.effects[1].text)
        && r.effects[|r.effects| - 1] == ClosingEdit(q, "unbanned")
  {
    var r := UnbanAnswered(cfg, w, q, parsed, clean);
    if parsed.Success? && clean.Clean? {
      UnbanTraceShape(cfg, w, q, parsed.value.userID, AnswerCallback(q.id, "accepted"), UpdateHam(clean.body), r);
    }
  }

  /** Any run that follows the answer, the ham sample and the UnbanCalls
      touches only the given user, and makes all of them when it is done. */
  lemma UnbanTraceShape(cfg: Config, w: World, q: Query, userID: int, answer: Effect, ham: Effect, r: Run)
    requires answer.AnswerCallback? && ham.UpdateHam?
    requires Sequenced(w, [answer, ham] + UnbanCalls(cfg, q, userID), r)
    ensures forall e :: e in r.effects && e.UnbanMember? ==>
      !cfg.trainingMode && e == UnbanMember(cfg.primChatID, userID)
    ensures forall e :: e in r.effects && e.AddApprovedUser? ==>
      e == AddApprovedUser(userID, ApprovedName(q.text))
    ensures r.outcome == Done ==>
      |r.effects| == (if cfg.trainingMode then 4 else 5)
      && r.effects[1] == ham && r.effects[|r.effects| - 1] == ClosingEdit(q, "unbanned")
  {
    SequencedShape(w, [answer, ham] + UnbanCalls(cfg, q, userID), r);
    UnbanCallsShape(cfg, q, userID);
    forall e | e in r.effects
      ensures e == answer || e == ham || e in UnbanCalls(cfg, q, userID)
    {
      assert e in [answer, ham] + UnbanCalls(cfg, q, userID);
    }
  }

  /** callbackUnbanConfirmed after the answer, given the parsed payload
      and the report's clean text. */
  function UnbanParsed(cfg: Config, w: World, q: Query, parsed: Result<Ids, ParseError>, clean: CleanResult): (r: Run)
    ensures FailFast(w, r)
    ensures parsed.Failure? ==> r == Run([], Failed([BadCallbackData(q.data, parsed.error)]))
    ensures parsed.Success? && clean == TooFewLines ==> r == Run([], Failed([UnexpectedAdminText(q.text)]))
    ensures parsed.Success? && clean.MarkerTooEarly? ==> r == Run([], Panicked)
    ensures parsed.Success? && clean.Clean? ==>
      Sequenced(w, [UpdateHam(clean.body)] + UnbanCalls(cfg, q, parsed.value.userID), r)
  {
    match parsed
    case Failure(e) => Run([], Failed([BadCallbackData(q.data, e)]))
    case Success(ids) =>
      match clean
      case TooFewLines => Run([], Failed([UnexpectedAdminText(q.text)]))
      case MarkerTooEarly(_) => Run([], Panicked)
      case Clean(body) =>
        var rest := UnbanAndApprove(cfg, w, q, ids.userID);
        var r := Attempt(w, UpdateHam(body), rest);
        AttemptSequenced(w, UpdateHam(body), UnbanCalls(cfg, q, ids.userID), rest);
        r
  }

  /** callbackUnbanConfirmed from the unban on: the UnbanCalls, stopping
      at the first failure. */
  function UnbanAndApprove(cfg: Config, w: World, q: Query, userID: int): (r: Run)
    ensures Sequenced(w, UnbanCalls(cfg, q, userID), r)
    ensures FailFast(w, r) && |r.effects| >= 1
    ensures forall e :: e in r.effects ==>
      (e == UnbanMember(cfg.primChatID, userID) && !cfg.trainingMode)
      || e == AddApprovedUser(userID, ApprovedName(q.text))
      || e == ClosingEdit(q, "unbanned")
    ensures r.outcome == Done ==>
      |r.effects| == (if cfg.trainingMode then 2 else 3)
      && r.effects[|r.effects| - 1] == ClosingEdit(q, "unbanned")
  {
    var r := RunSequence(w, UnbanCalls(cfg, q, userID));
    SequencedShape(w, UnbanCalls(cfg, q, userID), r);
    UnbanCallsShape(cfg, q, userID);
    r
  }

  lemma UnbanCallsShape(cfg: Config, q: Query, userID: int)
    ensures |UnbanCalls(cfg, q, userID)| == (if cfg.trainingMode then 2 else 3)
    ensures UnbanCalls(cfg, q, userID)[|UnbanCalls(cfg, q, userID)| - 1] == ClosingEdit(q, "unbanned")
    ensures forall e :: e in UnbanCalls(cfg, q, userID) ==>
      (e == UnbanMember(cfg.primChatID, userID) && !cfg.trainingMode)
      || e == AddApprovedUser(userID, ApprovedName(q.text))
      || e == ClosingEdit(q, "unbanned")
  {
  }

  // ---------------------------------------------------------------------
  // callbackShowInfo
  // ---------------------------------------------------------------------

  /** The spam-info block of callbackShowInfo: the locator's check results
      for the payload's user. A payload that does not parse leaves the
      user id 0, and so does a parsed id 0: both give "can't get spam
      info", the parse error being computed but never shown. */
  function ShowInfoText(w: World, data: string): (s: string)
    ensures ParseCallbackData(data).Failure? ==> s == NoSpamInfo
    ensures s == NoSpamInfo <==>
      ParseCallbackData(data).Failure? || ParseCallbackData(data).value.userID == 0
      || w.spamChecks(ParseCallbackData(data).value.userID).None?
      || |w.spamChecks(ParseCallbackData(data).value.userID).value| == 0
    // otherwise the block lists the located checks
    ensures ParseCallbackData(data).Success? && ParseCallbackData(data).value.userID != 0
            && w.spamChecks(ParseCallbackData(data).value.userID).Some? ==>
      s == SpamInfoText(w, w.spamChecks(ParseCallbackData(data).value.userID).value)
  {
    var userID := match ParseCallbackData(data) case Success(ids) => ids.userID case Failure(_) => 0;
    if userID == 0 then NoSpamInfo
    else match w.spamChecks(userID)
      case None => NoSpamInfo
      case Some(checks) => SpamInfoText(w, checks)
  }

  /** The keyboard callbackShowInfo leaves: the first row cut to its first
      button (the info button goes), other rows kept; no keyboard or an
      empty one becomes the empty keyboard. An empty first row makes Go's
      `[:1]` panic, shown as None. */
  function InfoKeyboard(markup: Option<Keyboard>): (r: Option<Keyboard>)
    ensures r.None? <==> markup.Some? && |markup.value| > 0 && |markup.value[0]| == 0
    ensures r.Some? && markup.Some? && |markup.value| > 0 ==>
      |r.value| == |markup.value| && r.value[0] == markup.value[0][..1] && r.value[1..] == markup.value[1..]
    ensures r.Some? && (markup.None? || |markup.value| == 0) ==> r.value == []
  {
    if markup.None? || |markup.value| == 0 then Some([])
    else if |markup.value[0]| == 0 then None
    else Some([markup.value[0][..1]] + markup.value[1..])
  }

  /** callbackShowInfo: append the spam detection results to the pressed
      message, in markdown, and drop the info button. */
  function CallbackShowInfo(cfg: Config, w: World, q: Query): (r: Run)
    ensures r.outcome == Panicked <==> InfoKeyboard(q.markup).None?
    // the keyboard is cut before the edit is built, so a panic issues nothing
    ensures r.outcome == Panicked ==> r.effects == []
    ensures r.outcome != Panicked ==>
      r.effects == [EditText(q.chatID, q.messageID,
                             q.text + "\n\n**spam detection results**\n" + ShowInfoText(w, q.data),
                             InfoKeyboard(q.markup).value, true)]
      && (r.outcome == Done <==> !w.fails(r.effects[0]))
  {
    match InfoKeyboard(q.markup)
    case None => Run([], Panicked)
    case Some(kb) =>
      Attempt(w, EditText(q.chatID, q.messageID, q.text + "\n\n**spam detection results**\n" + ShowInfoText(w, q.data), kb, true),
        Run([], Done))
  }
}

=== FILE: clean_message.dfy ===
/** getCleanMessage (app/events/admin.go): recovering the original spam
    text from the message the bot previously wrote into the admin chat. */
module CleanMessage {
  import opened Text

  /** The line that opens the spam-check section of an admin message. */
  const Marker: string := "spam detection results"

  /** What getCleanMessage produces. `MarkerTooEarly` stands for the Go
      runtime panic `slice bounds out of range [2:i-1]`, raised when the
      first marker line sits at index 0, 1 or 2. */
  datatype CleanResult =
    | Clean(body: string)
    | TooFewLines
    | MarkerTooEarly(index: nat)

  predicate IsMarkerLine(line: string)
  {
    HasPrefix(line, Marker)
  }

  /** Index of the first line starting with the marker, or |lines|. */
  function FirstMarkerLine(lines: seq<string>): (i: nat)
    ensures i <= |lines|
    ensures i < |lines| ==> IsMarkerLine(lines[i])
    ensures forall k :: 0 <= k < i ==> !IsMarkerLine(lines[k])
  {
    if |lines| == 0 then 0
    else if IsMarkerLine(lines[0]) then 0
    else FirstMarkerLine(lines[1..]) + 1
  }

  /** FirstMarkerLine is determined by its contract. */
  lemma FirstMarkerLineIs(lines: seq<string>)
    ensures forall i :: IsFirstMarker(lines, i) ==> FirstMarkerLine(lines) == i
  {
  }

  /** Line `i` starts with the marker and no earlier line does. */
  predicate IsFirstMarker(lines: seq<string>, i: int)
  {
    0 <= i < |lines| && IsMarkerLine(lines[i]) && forall k :: 0 <= k < i ==> !IsMarkerLine(lines[k])
  }

  predicate NoMarkerLine(lines: seq<string>)
  {
    forall k :: 0 <= k < |lines| ==> !IsMarkerLine(lines[k])
  }

  function Lines(msg: string): seq<string>
  {
    Split(msg, '\n')
  }

  /** getCleanMessage: split on newlines; fewer than two lines is an
      error; otherwise the lines from index 2 up to, but not including,
      the line just before the first marker line (to the end when there
      is no marker line). */
  function GetCleanMessage(msg: string): (r: CleanResult)
    ensures r == TooFewLines <==> |Lines(msg)| < 2
    ensures r.MarkerTooEarly? ==> r.index < 3 && IsFirstMarker(Lines(msg), r.index)
    ensures |Lines(msg)| >= 2 && NoMarkerLine(Lines(msg)) ==> r == Clean(Join(Lines(msg)[2..], '\n'))
    ensures forall i :: 3 <= i && IsFirstMarker(Lines(msg), i) ==> r == Clean(Join(Lines(msg)[2..i - 1], '\n'))
    ensures forall i :: 0 <= i < 3 && IsFirstMarker(Lines(msg), i) && |Lines(msg)| >= 2 ==> r == MarkerTooEarly(i)
  {
    var lines := Lines(msg);
    FirstMarkerLineIs(lines);
    if |lines| < 2 then TooFewLines
    else
      var m := FirstMarkerLine(lines);
      if m == |lines| then Clean(Join(lines[2..], '\n'))
      else if m < 3 then MarkerTooEarly(m)
      else Clean(Join(lines[2..m - 1], '\n'))
  }

  // ---------------------------------------------------------------------
  // The layout getCleanMessage expects (the comment above it in the
  // source): a header line, a blank line, the original text, then
  // optionally one more line and the "spam detection results" section.
  // ---------------------------------------------------------------------

  /** A text of lines none of which opens the spam-check section. */
  predicate MarkerFree(text: string)
  {
    NoMarkerLine(Lines(text))
  }

  /** A single line that does not open the spam-check section. */
  predicate PlainLine(line: string)
  {
    '\n' !in line && !IsMarkerLine(line)
  }

  /** Without a results section everything after the blank line is
      returned unchanged. */
  lemma CleanWithoutResults(header: string, body: string)
    requires PlainLine(header) && MarkerFree(body)
    ensures GetCleanMessage(header + "\n\n" + body) == Clean(body)
  {
    var msg := header + "\n\n" + body;
    assert msg == header + ['\n'] + ("" + ['\n'] + body);
    SplitAppend(header, '\n', "" + ['\n'] + body);
    SplitAppend("", '\n', body);
    SplitNoSep(header, '\n');
    SplitNoSep("", '\n');
    var sb := Lines(body);
    var lines := Lines(msg);
    assert lines == [header] + ([""] + sb);
    ShortLayout(header, "", sb);
    assert !IsMarkerLine("");
    assert NoMarkerLine(lines) by {
      forall k | 0 <= k < |lines| ensures !IsMarkerLine(lines[k]) {
        if k >= 2 { assert lines[k] == sb[k - 2]; }
      }
    }
  }

  /** With a results section, the line just before the marker line is
      dropped whatever it holds, and the text between the blank line and
      that dropped line is returned. */
  lemma CleanDropsLineBeforeMarker(header: string, body: string, gap: string, section: string)
    requires PlainLine(header) && PlainLine(gap) && MarkerFree(body)
    requires IsMarkerLine(section)
    ensures GetCleanMessage(header + "\n\n" + body + "\n" + gap + "\n" + section) == Clean(body)
  {
    var msg := header + "\n\n" + body + "\n" + gap + "\n" + section;
    var sb, st := Lines(body), Lines(section);
    var lines := Lines(msg);
    LinesOfLongLayout(header, body, gap, section);
    FirstLineKeepsMarker(section);
    LongLayout(header, "", sb, gap, st);
    var i := 3 + |sb|;
    assert !IsMarkerLine("");
    assert IsFirstMarker(lines, i) by {
      forall k | 0 <= k < i ensures !IsMarkerLine(lines[k]) {
        if 2 <= k < 2 + |sb| { assert lines[k] == sb[k - 2]; }
      }
    }
    assert lines[2..i - 1] == sb;
    assert Join(sb, '\n') == body;
    assert GetCleanMessage(msg) == Clean(Join(lines[2..i - 1], '\n'));
  }

  lemma LinesOfLongLayout(header: string, body: string, gap: string, section: string)
    requires '\n' !in header && '\n' !in gap
    ensures Lines(header + "\n\n" + body + "\n" + gap + "\n" + section)
      == [header] + ([""] + (Lines(body) + ([gap] + Lines(section))))
  {
    var x3 := gap + ['\n'] + section;
    var x2 := body + ['\n'] + x3;
    var x1 := "" + ['\n'] + x2;
    assert header + "\n\n" + body + "\n" + gap + "\n" + section == header + ['\n'] + x1;
    SplitAppend(header, '\n', x1);
    SplitAppend("", '\n', x2);
    SplitAppend(body, '\n', x3);
    SplitAppend(gap, '\n', section);
    SplitNoSep(header, '\n');
    SplitNoSep("", '\n');
    SplitNoSep(gap, '\n');
  }

  /** The first line of a text that starts with the marker starts with it
      too, since the marker holds no newline. */
  lemma FirstLineKeepsMarker(section: string)
    requires IsMarkerLine(section)
    ensures IsMarkerLine(Lines(section)[0])
  {
    var j := IndexOf(section, '\n');
    assert forall x :: 0 <= x < |Marker| ==> section[x] == Marker[x];
    assert j >= |Marker|;
    var first := Lines(section)[0];
    assert first == section[..j] by {
      if j < |section| {
        assert Lines(section) == [section[..j]] + Split(section[j + 1..], '\n');
      } else {
        assert section[..j] == section;
      }
    }
    assert first[..|Marker|] == section[..|Marker|];
  }

  /** Positions in `[h, e] + sb`. */
  lemma ShortLayout<T>(h: T, e: T, sb: seq<T>)
    ensures var l := [h] + ([e] + sb);
      |l| == 2 + |sb| && l[0] == h && l[1] == e && l[2..] == sb
      && forall j :: 0 <= j < |sb| ==> l[2 + j] == sb[j]
  {
  }

  /** Positions in `[h, e] + sb + [g] + st`. */
  lemma LongLayout<T>(h: T, e: T, sb: seq<T>, g: T, st: seq<T>)
    requires |st| >= 1
    ensures var l := [h] + ([e] + (sb + ([g] + st)));
      |l| == 3 + |sb| + |st| && l[0] == h && l[1] == e
      && l[2..2 + |sb|] == sb && l[2 + |sb|] == g && l[3 + |sb|] == st[0]
      && forall j :: 0 <= j < |sb| ==> l[2 + j] == sb[j]
  {
    var l := [h] + ([e] + (sb + ([g] + st)));
    assert l[2..2 + |sb|] == sb;
  }
}

=== FILE: codec.dfy ===
/** The inline-button payload `<prefix><userID>:<msgID>` written by the
    admin handlers (app/events/admin.go, sendWithUnbanMarkup and
    callbackAskBanConfirmation) and read back by parseCallbackData, with
    the parts of Go's `strconv`/`fmt` integer handling it depends on. */
module Codec {
  import opened Wrappers
  import opened Text

  const MinInt64: int := -0x8000_0000_0000_0000
  const MaxInt64: int := 0x7FFF_FFFF_FFFF_FFFF
  const MaxUint64: int := 0xFFFF_FFFF_FFFF_FFFF

  predicate IsInt64(n: int)
  {
    MinInt64 <= n <= MaxInt64
  }

  // ---------------------------------------------------------------------
  // Decimal literals: the reference meaning of a digit string
  // ---------------------------------------------------------------------

  /** Go regexp `\d` and strconv's base-10 digits: ASCII 0-9 only. */
  predicate IsDigit(c: char)
  {
    '0' <= c <= '9'
  }

  predicate AllDigits(s: string)
  {
    forall i :: 0 <= i < |s| ==> IsDigit(s[i])
  }

  function DigitValue(c: char): (d: nat)
    requires IsDigit(c)
    ensures d < 10
  {
    c as int - '0' as int
  }

  function DigitChar(d: nat): (c: char)
    requires d < 10
    ensures IsDigit(c) && DigitValue(c) == d
  {
    ('0' as int + d) as char
  }

  /** The number a digit string denotes, most significant digit first. */
  function DigitsValue(s: string): nat
    requires AllDigits(s)
  {
    if |s| == 0 then 0 else DigitsValue(s[..|s| - 1]) * 10 + DigitValue(s[|s| - 1])
  }

  /** `s` without one leading sign character, if it has one. */
  function Unsigned(s: string): string
  {
    if |s| > 0 && (s[0] == '+' || s[0] == '-') then s[1..] else s
  }

  /** What `strconv.ParseInt(s, 10, 64)` accepts syntactically: an
      optional `+` or `-` followed by one or more ASCII digits (base 10
      admits no underscores and no base prefix). */
  predicate IsDecimalLiteral(s: string)
  {
    |Unsigned(s)| >= 1 && AllDigits(Unsigned(s))
  }

  function LiteralValue(s: string): int
    requires IsDecimalLiteral(s)
  {
    if s[0] == '-' then 0 - DigitsValue(s[1..]) else DigitsValue(Unsigned(s))
  }

  /** A digit string is worth at least each of its prefixes. */
  lemma {:induction false} PrefixValueLe(q: string, k: nat)
    requires AllDigits(q) && k <= |q|
    ensures AllDigits(q[..k]) && DigitsValue(q[..k]) <= DigitsValue(q)
    decreases |q|
  {
    if k < |q| {
      var q' := q[..|q| - 1];
      assert q'[..k] == q[..k];
      assert AllDigits(q');
      assert DigitsValue(q') <= DigitsValue(q);
      PrefixValueLe(q', k);
      assert DigitsValue(q[..k]) == DigitsValue(q'[..k]);
    } else {
      assert q[..k] == q;
    }
  }

  // ---------------------------------------------------------------------
  // strconv.ParseInt(s, 10, 64) and strconv.Atoi (the same on 64-bit Go)
  // ---------------------------------------------------------------------

  /** strconv.ParseUint's base-10 loop: stops with an error at the first
      non-digit, or as soon as the running value leaves the uint64 range. */
  function AccumulateDigits(s: string, acc: nat): Option<nat>
  {
    if |s| == 0 then Some(acc)
    else if !IsDigit(s[0]) then None
    else
      var n := acc * 10 + DigitValue(s[0]);
      if n > MaxUint64 then None else AccumulateDigits(s[1..], n)
  }

  /** Accumulating the digits of `s` on top of the value of `p` yields the
      value of `p + s`, unless `s` has a non-digit or the value overflows. */
  lemma {:induction false} AccumulateDigitsMeaning(p: string, s: string)
    requires AllDigits(p) && DigitsValue(p) <= MaxUint64
    ensures AccumulateDigits(s, DigitsValue(p)) ==
      if AllDigits(p + s) && DigitsValue(p + s) <= MaxUint64 then Some(DigitsValue(p + s)) else None
    decreases |s|
  {
    if |s| == 0 {
      assert p + s == p;
    } else if !IsDigit(s[0]) {
      assert (p + s)[|p|] == s[0];
    } else {
      var p' := p + [s[0]];
      assert p'[..|p'| - 1] == p;
      assert AllDigits(p');
      assert p' + s[1..] == p + s;
      if DigitsValue(p') > MaxUint64 {
        if AllDigits(p + s) {
          assert (p + s)[..|p'|] == p';
          PrefixValueLe(p + s, |p'|);
        }
      } else {
        AccumulateDigitsMeaning(p', s[1..]);
      }
    }
  }

  /** strconv.ParseUint(s, 10, 64): the empty string is a syntax error. */
  function ParseUint64(s: string): Option<nat>
  {
    if |s| == 0 then None else AccumulateDigits(s, 0)
  }

  /** strconv.ParseInt(s, 10, 64): one optional sign, then ParseUint, then
      the signed range check against 1<<63. strconv.Atoi gives the same
      answers on a 64-bit platform (its short-input fast path accepts the
      same sign-then-digits syntax). */
  function ParseInt64(s: string): (r: Option<int>)
    ensures r.Some? <==> IsDecimalLiteral(s) && IsInt64(LiteralValue(s))
    ensures r.Some? ==> r.value == LiteralValue(s)
  {
    if |s| == 0 then None
    else
      var neg := s[0] == '-';
      var digits := if s[0] == '+' || s[0] == '-' then s[1..] else s;
      assert digits == Unsigned(s);
      AccumulateDigitsMeaning("", digits);
      assert "" + digits == digits;
      match ParseUint64(digits)
      case None => None
      case Some(un) =>
        if !neg && un >= 0x8000_0000_0000_0000 then None
        else if neg && un > 0x8000_0000_0000_0000 then None
        else
          var v: int := if neg then 0 - un else un;
          Some(v)
  }

  // ---------------------------------------------------------------------
  // fmt's %d
  // ---------------------------------------------------------------------

  /** Decimal digits of `n` without leading zeros. */
  function FormatNat(n: nat): (s: string)
    ensures |s| >= 1 && AllDigits(s) && IsAscii(s)
    ensures DigitsValue(s) == n
    ensures |s| > 1 ==> s[0] != '0'
  {
    if n < 10 then [DigitChar(n)]
    else
      var front := FormatNat(n / 10);
      var s := front + [DigitChar(n % 10)];
      assert s[..|s| - 1] == front;
      s
  }

  /** `fmt.Sprintf("%d", n)`: a minus sign for negatives, never a plus. */
  function FormatInt(n: int): (s: string)
    ensures IsAscii(s) && |s| >= 1
    ensures s[0] == '-' || IsDigit(s[0])
    ensures IsDecimalLiteral(s) && LiteralValue(s) == n
    ensures ':' !in s
  {
    if n < 0 then "-" + FormatNat(-n) else FormatNat(n)
  }

  /** `%d` writes the canonical form: a minus sign exactly for negatives,
      and no leading zero. */
  lemma FormatIntCanonical(n: int)
    ensures FormatInt(n)[0] == '-' <==> n < 0
    ensures |FormatInt(n)| > 1 && FormatInt(n)[0] != '-' ==> FormatInt(n)[0] != '0'
    ensures FormatInt(n)[0] == '-' ==> |FormatInt(n)| >= 2 && FormatInt(n)[1] != '0'
  {
  }

  /** Reading back what %d wrote gives the same int64. */
  lemma ParseFormatInt(n: int)
    requires IsInt64(n)
    ensures ParseInt64(FormatInt(n)) == Some(n)
  {
  }

  // ---------------------------------------------------------------------
  // The callback payload
  // ---------------------------------------------------------------------

  /** What a button press asks for, selected by the payload's first
      character: `?` ask for confirmation, `+` ban confirmed, `!` show
      spam info, no prefix unban. */
  datatype Action = AskConfirm | ConfirmBan | ShowInfo | Unban

  function Prefix(a: Action): string
  {
    match a
    case AskConfirm => "?"
    case ConfirmBan => "+"
    case ShowInfo => "!"
    case Unban => ""
  }

  /** `fmt.Sprintf("%s%d:%d", prefix, userID, msgID)`. */
  function Encode(a: Action, userID: int, msgID: int): string
  {
    Prefix(a) + EncodeIds(userID, msgID)
  }

  /** The `%d:%d` part of a payload: ASCII, at least three characters,
      starting with a digit or a minus sign. */
  function EncodeIds(userID: int, msgID: int): (body: string)
    ensures IsAscii(body) && |body| >= 3
    ensures body[0] == '-' || IsDigit(body[0])
  {
    var u := FormatInt(userID);
    var body := u + ":" + FormatInt(msgID);
    assert body[0] == u[0];
    assert IsAscii(body) by {
      forall i | 0 <= i < |body| ensures (body[i] as int) < 0x80 {
        if i < |u| { assert body[i] == u[i]; }
        else if i > |u| { assert body[i] == FormatInt(msgID)[i - |u| - 1]; }
      }
    }
    body
  }

  /** InlineCallbackHandler's prefix tests, in the order they are made. */
  function ActionOf(data: string): Action
  {
    if StartsWith(data, '?') then AskConfirm
    else if StartsWith(data, '+') then ConfirmBan
    else if StartsWith(data, '!') then ShowInfo
    else Unban
  }

  /** `strings.HasPrefix(data, p)` for a one-character ASCII prefix `p`. */
  predicate StartsWith(data: string, c: char)
  {
    |data| >= 1 && data[0] == c
  }

  datatype Ids = Ids(userID: int, msgID: int)

  datatype ParseError =
    | TooShort
    | NotTwoParts(count: nat)
    | BadUserID(part: string)
    | BadMsgID(part: string)

  predicate IsPrefixChar(c: char)
  {
    c == '?' || c == '+' || c == '!'
  }

  /** parseCallbackData drops at most one leading `?`, `+` or `!`. */
  function StripPrefix(data: string): string
  {
    if |data| >= 1 && IsPrefixChar(data[0]) then data[1..] else data
  }

  /** `body` is `<user>:<msg>` with exactly one colon, both sides decimal
      literals in int64 range denoting the ids. */
  ghost predicate Denotes(body: string, ids: Ids)
  {
    exists i :: 0 <= i < |body| && IsColonSplit(body, i) && IdsAt(body, i, ids)
  }

  predicate IsColonSplit(body: string, i: int)
  {
    0 <= i < |body| && body[i] == ':' && ':' !in body[..i] && ':' !in body[i + 1..]
  }

  predicate IdsAt(body: string, i: int, ids: Ids)
  {
    0 <= i < |body|
    && IsDecimalLiteral(body[..i]) && IsInt64(LiteralValue(body[..i])) && LiteralValue(body[..i]) == ids.userID
    && IsDecimalLiteral(body[i + 1..]) && IsInt64(LiteralValue(body[i + 1..])) && LiteralValue(body[i + 1..]) == ids.msgID
  }

  /** Splitting on the only colon gives the two sides. */
  lemma ColonSplit(body: string, i: int)
    requires IsColonSplit(body, i)
    ensures Split(body, ':') == [body[..i], body[i + 1..]]
  {
    assert body == body[..i] + [':'] + body[i + 1..];
    SplitAppend(body[..i], ':', body[i + 1..]);
    SplitNoSep(body[..i], ':');
    SplitNoSep(body[i + 1..], ':');
  }

  /** parseCallbackData: the length check on the raw bytes comes first,
      then one prefix character is stripped, then the rest must split on
      `:` into exactly two int64 literals. */
  function ParseCallbackData(data: string): (r: Result<Ids, ParseError>)
    ensures ByteLen(data) < 3 ==> r == Failure(TooShort)
    ensures r.Success? ==> ByteLen(data) >= 3 && Denotes(StripPrefix(data), r.value)
    ensures forall ids :: ByteLen(data) >= 3 && Denotes(StripPrefix(data), ids) ==> r == Success(ids)
    ensures r.Failure? && r.error.NotTwoParts? ==> r.error.count == |Split(StripPrefix(data), ':')| != 2
    ensures r.Failure? && r.error.BadUserID? ==> !(IsDecimalLiteral(r.error.part) && IsInt64(LiteralValue(r.error.part)))
    ensures r.Failure? && r.error.BadMsgID? ==> !(IsDecimalLiteral(r.error.part) && IsInt64(LiteralValue(r.error.part)))
  {
    if ByteLen(data) < 3 then Failure(TooShort)
    else
      var body := StripPrefix(data);
      var parts := Split(body, ':');
      if |parts| != 2 then
        assert forall ids :: !Denotes(body, ids) by {
          forall i | IsColonSplit(body, i) ensures false {
            ColonSplit(body, i);
          }
        }
        Failure(NotTwoParts(|parts|))
      else
        SplitPartsSepFree(body, ':');
        var i := |parts[0]|;
        assert body == parts[0] + [':'] + parts[1] by {
          assert Join(parts, ':') == parts[0] + [':'] + Join(parts[1..], ':');
        }
        assert body[..i] == parts[0] && body[i + 1..] == parts[1];
        assert IsColonSplit(body, i);
        assert forall j :: IsColonSplit(body, j) ==> j == i by {
          forall j | IsColonSplit(body, j) ensures j == i {
            ColonSplit(body, j);
          }
        }
        match ParseInt64(parts[0])
        case None => Failure(BadUserID(parts[0]))
        case Some(u) =>
          match ParseInt64(parts[1])
          case None => Failure(BadMsgID(parts[1]))
          case Some(m) =>
            assert IdsAt(body, i, Ids(u, m));
            Success(Ids(u, m))
  }

  /** Which error parseCallbackData reports: the part count is checked
      first, then the user id, then the message id, and each error names
      the part it rejected. */
  lemma ParseErrorKinds(data: string)
    ensures var r := ParseCallbackData(data);
      ByteLen(data) >= 3 && |Split(StripPrefix(data), ':')| != 2 ==>
        r == Failure(NotTwoParts(|Split(StripPrefix(data), ':')|))
    ensures var r := ParseCallbackData(data);
      ByteLen(data) >= 3 && |Split(StripPrefix(data), ':')| == 2 && ParseInt64(Split(StripPrefix(data), ':')[0]).None? ==>
        r == Failure(BadUserID(Split(StripPrefix(data), ':')[0]))
    ensures var r := ParseCallbackData(data);
      r.Failure? && r.error.BadUserID? ==>
        ByteLen(data) >= 3 && |Split(StripPrefix(data), ':')| == 2 && r.error.part == Split(StripPrefix(data), ':')[0]
    ensures var r := ParseCallbackData(data);
      r.Failure? && r.error.BadMsgID? ==>
        ByteLen(data) >= 3 && |Split(StripPrefix(data), ':')| == 2 && r.error.part == Split(StripPrefix(data), ':')[1]
        && ParseInt64(Split(StripPrefix(data), ':')[0]).Some?
  {
  }

  // ---------------------------------------------------------------------
  // Properties of the payload
  // ---------------------------------------------------------------------

  /** Every payload the handlers write is read back as the ids written,
      and is dispatched to the action it was written for. */
  lemma PayloadRoundTrip(a: Action, userID: int, msgID: int)
    requires IsInt64(userID) && IsInt64(msgID)
    ensures ParseCallbackData(Encode(a, userID, msgID)) == Success(Ids(userID, msgID))
  {
    EncodedLength(a, userID, msgID);
    EncodedBodyDenotes(a, userID, msgID);
    ParseDenoted(Encode(a, userID, msgID), Ids(userID, msgID));
  }

  lemma EncodedLength(a: Action, userID: int, msgID: int)
    ensures ByteLen(Encode(a, userID, msgID)) >= 3
  {
    var data := Encode(a, userID, msgID);
    var body := EncodeIds(userID, msgID);
    ByteLenBounds(body);
    if a == Unban {
      assert data == body;
    } else {
      assert data[1..] == body;
      assert ByteLen(data) == Utf8Width(data[0]) + ByteLen(body);
    }
  }

  lemma EncodedBodyDenotes(a: Action, userID: int, msgID: int)
    requires IsInt64(userID) && IsInt64(msgID)
    ensures Denotes(StripPrefix(Encode(a, userID, msgID)), Ids(userID, msgID))
  {
    var body := EncodeIds(userID, msgID);
    var data := Prefix(a) + body;
    if a == Unban {
      assert data == body;
      assert !IsPrefixChar(body[0]);
    } else {
      assert IsPrefixChar(data[0]);
      assert data[1..] == body;
    }
    assert StripPrefix(data) == body;
    assert body == FormatInt(userID) + ":" + FormatInt(msgID);
    JoinedLiteralsDenote(FormatInt(userID), FormatInt(msgID));
  }

  /** Two colon-free int64 literals joined by a colon denote their values. */
  lemma JoinedLiteralsDenote(u: string, m: string)
    requires ':' !in u && ':' !in m
    requires IsDecimalLiteral(u) && IsInt64(LiteralValue(u))
    requires IsDecimalLiteral(m) && IsInt64(LiteralValue(m))
    ensures Denotes(u + ":" + m, Ids(LiteralValue(u), LiteralValue(m)))
  {
    var body := u + ":" + m;
    assert body[..|u|] == u && body[|u| + 1..] == m;
    assert IsColonSplit(body, |u|);
    assert IdsAt(body, |u|, Ids(LiteralValue(u), LiteralValue(m)));
  }

  /** Encoded payloads are dispatched to the action they were written for. */
  lemma EncodedAction(a: Action, userID: int, msgID: int)
    ensures ActionOf(Encode(a, userID, msgID)) == a
  {
    PrefixedAction(a, EncodeIds(userID, msgID));
  }

  /** Putting an action's prefix before a body that starts with a digit or
      a minus sign yields a payload dispatched to that action. */
  lemma PrefixedAction(a: Action, body: string)
    requires |body| >= 1 && (body[0] == '-' || IsDigit(body[0]))
    ensures ActionOf(Prefix(a) + body) == a
  {
    match a
    case Unban => assert Prefix(a) + body == body;
    case AskConfirm => assert (Prefix(a) + body)[0] == '?';
    case ConfirmBan => assert (Prefix(a) + body)[0] == '+';
    case ShowInfo => assert (Prefix(a) + body)[0] == '!';
  }

  /** The completeness half of ParseCallbackData's contract, for one id pair. */
  lemma ParseDenoted(data: string, ids: Ids)
    requires ByteLen(data) >= 3 && Denotes(StripPrefix(data), ids)
    ensures ParseCallbackData(data) == Success(ids)
  {
  }

  /** A literal starts with a sign or a digit, never with `?` or `!`. */
  lemma LiteralFirstChar(x: string)
    requires IsDecimalLiteral(x)
    ensures |x| >= 1 && (x[0] == '+' || x[0] == '-' || IsDigit(x[0]))
  {
    if !(x[0] == '+' || x[0] == '-') {
      assert Unsigned(x)[0] == x[0];
    }
  }

  /** A well-formed payload body has at least three characters and does
      not itself start with a `?` or `!` prefix. */
  lemma DenotedShape(body: string, ids: Ids)
    requires Denotes(body, ids)
    ensures |body| >= 3 && body[0] != '?' && body[0] != '!'
  {
    var i :| 0 <= i < |body| && IsColonSplit(body, i) && IdsAt(body, i, ids);
    LiteralFirstChar(body[..i]);
    assert body[..i][0] == body[0];
  }

  /** Dropping a leading `+` from a body whose user id carries an explicit
      plus sign leaves a body that denotes the same ids. */
  lemma DenotedWithoutPlus(body: string, ids: Ids)
    requires Denotes(body, ids) && body[0] == '+'
    ensures Denotes(body[1..], ids)
  {
    var i :| 0 <= i < |body| && IsColonSplit(body, i) && IdsAt(body, i, ids);
    var x := body[..i];
    assert x[0] == '+';
    var body' := body[1..];
    assert body'[..i - 1] == x[1..];
    assert body'[i..] == body[i + 1..];
    PlusLiteral(x);
    assert IsColonSplit(body', i - 1);
    assert IdsAt(body', i - 1, ids);
  }

  /** ParseInt's explicit plus sign can be dropped without changing the
      value. */
  lemma PlusLiteral(x: string)
    requires IsDecimalLiteral(x) && x[0] == '+'
    ensures IsDecimalLiteral(x[1..]) && LiteralValue(x[1..]) == LiteralValue(x)
  {
    assert Unsigned(x) == x[1..];
    assert Unsigned(x[1..]) == x[1..] by {
      assert x[1..][0] == Unsigned(x)[0];
    }
  }

  /** Dropping the `?` of an ask-confirm payload gives the unban payload,
      and putting `+` in its place the ban-confirmed payload. */
  lemma AskPayloadRewrites(userID: int, msgID: int)
    ensures |Encode(AskConfirm, userID, msgID)| >= 1
    ensures Encode(AskConfirm, userID, msgID)[1..] == Encode(Unban, userID, msgID)
    ensures "+" + Encode(AskConfirm, userID, msgID)[1..] == Encode(ConfirmBan, userID, msgID)
  {
    var body := EncodeIds(userID, msgID);
    assert Encode(AskConfirm, userID, msgID) == "?" + body;
    assert ("?" + body)[1..] == body;
  }

  /** The ask-confirm step turns `?u:m` into `u:m` (unban) and `+u:m`
      (ban confirmed); both carry the ids the original payload carried,
      for every payload that parses, not only the ones written by Encode. */
  lemma ConfirmationRewriteKeepsIds(data: string)
    requires |data| >= 1 && data[0] == '?'
    requires ParseCallbackData(data).Success?
    ensures ParseCallbackData(data[1..]) == ParseCallbackData(data)
    ensures ParseCallbackData("+" + data[1..]) == ParseCallbackData(data)
  {
    var ids := ParseCallbackData(data).value;
    assert StripPrefix(data) == data[1..];
    UnprefixedKeepsIds(data[1..], ids);
    PlusPrefixedKeepsIds(data[1..], ids);
  }

  lemma UnprefixedKeepsIds(rest: string, ids: Ids)
    requires Denotes(rest, ids)
    ensures ParseCallbackData(rest) == Success(ids)
  {
    DenotedShape(rest, ids);
    DenotedByteLen(rest, ids);
    if rest[0] == '+' {
      DenotedWithoutPlus(rest, ids);
      SignedBodyStrips(rest);
    } else {
      assert StripPrefix(rest) == rest;
    }
    ParseDenoted(rest, ids);
  }

  lemma SignedBodyStrips(rest: string)
    requires |rest| >= 1 && rest[0] == '+'
    ensures StripPrefix(rest) == rest[1..]
  {
  }

  lemma PlusPrefixedKeepsIds(rest: string, ids: Ids)
    requires Denotes(rest, ids)
    ensures ParseCallbackData("+" + rest) == Success(ids)
  {
    DenotedShape(rest, ids);
    var data := "+" + rest;
    ByteLenBounds(data);
    assert StripPrefix(data) == rest;
    ParseDenoted(data, ids);
  }

  lemma DenotedByteLen(body: string, ids: Ids)
    requires Denotes(body, ids)
    ensures ByteLen(body) >= 3
  {
    DenotedShape(body, ids);
    ByteLenBounds(body);
  }

  /** Only one prefix is stripped, and ParseInt accepts a sign of its
      own, so a doubled `+` still reads as a payload. */
  lemma DoublePlusParses()
    ensures ParseCallbackData("++5:3") == Success(Ids(5, 3))
  {
    var data, body := "++5:3", "+5:3";
    assert StripPrefix(data) == body;
    assert body[..2] == "+5" && body[3..] == "3";
    assert Unsigned("+5") == "5" && DigitsValue("5") == 5;
    assert DigitsValue("3") == 3;
    assert IsColonSplit(body, 2) && IdsAt(body, 2, Ids(5, 3));
    assert IsAscii(data);
    ByteLenBounds(data);
    ParseDenoted(data, Ids(5, 3));
  }
}

=== FILE: text.dfy ===
/** The pieces of Go's `strings` and `unicode/utf8` packages the admin
    handlers rely on, over strings as sequences of Unicode scalar values. */
module Text {

  /** Number of bytes `c` occupies in UTF-8, which is what Go's `len`
      counts for a string. */
  function Utf8Width(c: char): (w: nat)
    ensures 1 <= w <= 4
    ensures w == 1 <==> (c as int) < 0x80
  {
    if (c as int) < 0x80 then 1
    else if (c as int) < 0x800 then 2
    else if (c as int) < 0x10000 then 3
    else 4
  }

  /** Go's `len(s)`: the byte length of the UTF-8 encoding of `s`. */
  function ByteLen(s: string): (n: nat)
  {
    if |s| == 0 then 0 else Utf8Width(s[0]) + ByteLen(s[1..])
  }

  predicate IsAscii(s: string)
  {
    forall i :: 0 <= i < |s| ==> (s[i] as int) < 0x80
  }

  /** Every character takes at least one byte, and an ASCII string takes
      exactly one byte per character. */
  lemma {:induction false} ByteLenBounds(s: string)
    ensures |s| <= ByteLen(s) <= 4 * |s|
    ensures ByteLen(s) == |s| <==> IsAscii(s)
  {
    if |s| > 0 {
      ByteLenBounds(s[1..]);
      assert IsAscii(s) <==> (s[0] as int) < 0x80 && IsAscii(s[1..]) by {
        if IsAscii(s[1..]) && (s[0] as int) < 0x80 {
          forall i | 0 <= i < |s| ensures (s[i] as int) < 0x80 {
            if i > 0 { assert s[i] == s[1..][i - 1]; }
          }
        }
        if IsAscii(s) {
          forall i | 0 <= i < |s[1..]| ensures (s[1..][i] as int) < 0x80 {
            assert s[1..][i] == s[i + 1];
          }
        }
      }
    }
  }

  /** Go's `strings.HasPrefix`. */
  predicate HasPrefix(s: string, prefix: string)
  {
    |prefix| <= |s| && s[..|prefix|] == prefix
  }

  /** Go's `strings.Join`: the parts with `sep` between consecutive ones. */
  function Join(parts: seq<string>, sep: char): string
  {
    if |parts| == 0 then ""
    else if |parts| == 1 then parts[0]
    else parts[0] + [sep] + Join(parts[1..], sep)
  }

  /** A join starts with its first part. */
  lemma JoinStartsWithFirst(parts: seq<string>, sep: char)
    requires |parts| >= 1
    ensures HasPrefix(Join(parts, sep), parts[0])
  {
    if |parts| > 1 {
      assert (parts[0] + [sep] + Join(parts[1..], sep))[..|parts[0]|] == parts[0];
    }
  }

  /** Go's `strings.Index` for one character: the position of the first
      `c` in `s`, or `|s|` when there is none. */
  function IndexOf(s: string, c: char): (i: nat)
    ensures i <= |s|
    ensures i < |s| ==> s[i] == c
    ensures forall x :: 0 <= x < i ==> s[x] != c
  {
    if |s| == 0 then 0
    else if s[0] == c then 0
    else IndexOf(s[1..], c) + 1
  }

  /** Go's `strings.Split` with a one-character separator: the maximal
      `sep`-free runs between occurrences of `sep`. There is always at
      least one part; splitting "" gives [""]. */
  function Split(s: string, sep: char): (parts: seq<string>)
    ensures |parts| >= 1
    ensures Join(parts, sep) == s
    decreases |s|
  {
    var i := IndexOf(s, sep);
    if i == |s| then
      assert s[..i] == s;
      [s]
    else
      var rest := Split(s[i + 1..], sep);
      JoinCons(s[..i], rest, sep);
      assert s == s[..i] + [sep] + s[i + 1..];
      [s[..i]] + rest
  }

  /** Join of a list with at least one part after the first. */
  lemma JoinCons(first: string, rest: seq<string>, sep: char)
    requires |rest| >= 1
    ensures Join([first] + rest, sep) == first + [sep] + Join(rest, sep)
  {
    assert ([first] + rest)[1..] == rest;
  }

  /** No part of a split contains the separator. */
  lemma {:induction false} SplitPartsSepFree(s: string, sep: char)
    ensures forall k :: 0 <= k < |Split(s, sep)| ==> sep !in Split(s, sep)[k]
    decreases |s|
  {
    var i := IndexOf(s, sep);
    if i < |s| {
      SplitPartsSepFree(s[i + 1..], sep);
      var parts := Split(s, sep);
      forall k | 0 <= k < |parts| ensures sep !in parts[k] {
        if k > 0 {
          assert parts[k] == Split(s[i + 1..], sep)[k - 1];
        }
      }
    } else {
      assert s[..i] == s;
    }
  }

  /** A string without the separator is a single part. */
  lemma SplitNoSep(a: string, sep: char)
    requires sep !in a
    ensures Split(a, sep) == [a]
  {
    var i := IndexOf(a, sep);
    assert i == |a|;
  }

  /** IndexOf is determined by its contract. */
  lemma IndexOfIs(s: string, c: char, k: nat)
    requires k <= |s| && (k < |s| ==> s[k] == c)
    requires forall x :: 0 <= x < k ==> s[x] != c
    ensures IndexOf(s, c) == k
  {
  }

  /** Splitting across one separator splits each side independently. */
  lemma {:induction false} SplitAppend(a: string, sep: char, b: string)
    ensures Split(a + [sep] + b, sep) == Split(a, sep) + Split(b, sep)
    decreases |a|
  {
    var s := a + [sep] + b;
    var i := IndexOf(a, sep);
    assert forall x :: 0 <= x < |a| ==> s[x] == a[x];
    if i == |a| {
      SplitAppendNoSep(a, sep, b);
    } else {
      IndexOfIs(s, sep, i);
      assert s[..i] == a[..i];
      assert s[i + 1..] == a[i + 1..] + [sep] + b;
      SplitAppend(a[i + 1..], sep, b);
      SplitAppendStep(s, a, sep, b, i);
    }
  }

  lemma SplitAppendNoSep(a: string, sep: char, b: string)
    requires IndexOf(a, sep) == |a|
    ensures Split(a + [sep] + b, sep) == Split(a, sep) + Split(b, sep)
  {
    var s := a + [sep] + b;
    assert forall x :: 0 <= x < |a| ==> s[x] == a[x];
    IndexOfIs(s, sep, |a|);
    assert s[..|a|] == a;
    assert s[|a| + 1..] == b;
    assert a[..|a|] == a;
  }

  lemma SplitAppendStep(s: string, a: string, sep: char, b: string, i: nat)
    requires i < |a| && i < |s| && IndexOf(a, sep) == i && IndexOf(s, sep) == i
    requires s[..i] == a[..i] && s[i + 1..] == a[i + 1..] + [sep] + b
    requires Split(a[i + 1..] + [sep] + b, sep) == Split(a[i + 1..], sep) + Split(b, sep)
    ensures Split(s, sep) == Split(a, sep) + Split(b, sep)
  {
    var p, q := Split(a[i + 1..], sep), Split(b, sep);
    assert Split(s, sep) == [a[..i]] + (p + q);
    assert Split(a, sep) == [a[..i]] + p;
    ConsAppend(a[..i], p, q);
  }

  /** Prepending one element commutes with appending a list. */
  lemma ConsAppend<T>(x: T, p: seq<T>, q: seq<T>)
    ensures [x] + (p + q) == ([x] + p) + q
  {
  }

  /** Split inverts Join on any non-empty list of separator-free parts,
      so together with Join(Split(s)) == s the two are mutual inverses. */
  lemma {:induction false} SplitJoin(parts: seq<string>, sep: char)
    requires |parts| >= 1
    requires forall i :: 0 <= i < |parts| ==> sep !in parts[i]
    ensures Split(Join(parts, sep), sep) == parts
  {
    if |parts| == 1 {
      SplitNoSep(parts[0], sep);
    } else {
      SplitJoin(parts[1..], sep);
      SplitAppend(parts[0], sep, Join(parts[1..], sep));
      SplitNoSep(parts[0], sep);
    }
  }

  /** Go's `strings.ReplaceAll(s, string(from), string(to))` for single
      characters. */
  function ReplaceChar(s: string, from: char, to: char): (r: string)
    ensures |r| == |s|
    ensures forall i :: 0 <= i < |s| ==> r[i] == (if s[i] == from then to else s[i])
  {
    if |s| == 0 then ""
    else [if s[0] == from then to else s[0]] + ReplaceChar(s[1..], from, to)
  }
}

=== FILE: username.dfy ===
/** extractUsername (app/events/admin.go): recovering the banned user's
    name from the text of a ban report, first with the markdown link
    pattern `\[(.*?)\]\(tg://user\?id=\d+\)`, then with the plain pattern
    `\{\d+ (\S+) .+?\}`.

    Both patterns are given declaratively below: a match at a start
    position, and the match the regular-expression engine prefers
    (leftmost start; for the lazy group the shortest capture). The search
    functions are proved to return exactly that preferred match. */
module Username {
  import opened Wrappers
  import opened Text
  import opened Codec

  // ---------------------------------------------------------------------
  // Character classes and runs
  // ---------------------------------------------------------------------

  /** `\s` of the Go regexp syntax: tab, newline, form feed, carriage
      return and space. */
  predicate IsSpaceClass(c: char)
  {
    c == '\t' || c == '\n' || c == '\U{000C}' || c == '\r' || c == ' '
  }

  /** No newline in `t[a..b]`: the text `.` may consume there. */
  predicate LineFreeBetween(t: string, a: int, b: int)
  {
    forall j :: a <= j < b && 0 <= j < |t| ==> t[j] != '\n'
  }

  /** End of the longest run of decimal digits starting at `d`. */
  function DigitRunEnd(t: string, d: nat): (k: nat)
    requires d <= |t|
    ensures d <= k <= |t|
    ensures forall j :: d <= j < k ==> IsDigit(t[j])
    ensures k == |t| || !IsDigit(t[k])
    decreases |t| - d
  {
    if d == |t| || !IsDigit(t[d]) then d else DigitRunEnd(t, d + 1)
  }

  /** End of the longest run of non-`\s` characters starting at `d`. */
  function NonSpaceRunEnd(t: string, d: nat): (k: nat)
    requires d <= |t|
    ensures d <= k <= |t|
    ensures forall j :: d <= j < k ==> !IsSpaceClass(t[j])
    ensures k == |t| || IsSpaceClass(t[k])
    decreases |t| - d
  {
    if d == |t| || IsSpaceClass(t[d]) then d else NonSpaceRunEnd(t, d + 1)
  }

  // ---------------------------------------------------------------------
  // The markdown pattern
  // ---------------------------------------------------------------------

  const LinkOpen: string := "](tg://user?id="

  /** `\]\(tg://user\?id=\d+\)` matches at `e`. The greedy `\d+` must be
      followed by `)`, which is no digit, so it takes the whole digit run. */
  predicate LinkTailAt(t: string, e: nat)
  {
    e <= |t| && HasPrefix(t[e..], LinkOpen)
    && var d := e + |LinkOpen|;
       var k := DigitRunEnd(t, d);
       d < k < |t| && t[k] == ')'
  }

  /** The markdown pattern matches from `s` with the group `t[s+1..e]`. */
  predicate MarkdownMatchAt(t: string, s: nat, e: nat)
  {
    s < |t| && t[s] == '[' && s + 1 <= e <= |t| && LineFreeBetween(t, s + 1, e) && LinkTailAt(t, e)
  }

  /** The markdown match the engine reports: no match starts earlier, and
      the lazy group is as short as possible. */
  ghost predicate PreferredMarkdown(t: string, s: nat, e: nat)
  {
    MarkdownMatchAt(t, s, e)
    && (forall s': nat, e': nat :: s' < s ==> !MarkdownMatchAt(t, s', e'))
    && (forall e': nat :: e' < e ==> !MarkdownMatchAt(t, s, e'))
  }

  /** Shortest group end at or after `e` for a match starting at `s`. */
  function ShortestLinkEnd(t: string, s: nat, e: nat): (r: Option<nat>)
    requires s < |t| && t[s] == '[' && s + 1 <= e <= |t| && LineFreeBetween(t, s + 1, e)
    ensures r.Some? ==> (e <= r.value && MarkdownMatchAt(t, s, r.value)
      && forall e': nat :: e <= e' < r.value ==> !MarkdownMatchAt(t, s, e'))
    ensures r.None? ==> forall e': nat :: e <= e' ==> !MarkdownMatchAt(t, s, e')
    decreases |t| - e
  {
    if LinkTailAt(t, e) then Some(e)
    else if e < |t| && t[e] != '\n' then
      var r := ShortestLinkEnd(t, s, e + 1);
      assert !MarkdownMatchAt(t, s, e);
      r
    else
      NoMatchPastLineEnd(t, s, e);
      None
  }

  /** A lazy group cannot run past a newline or the end of the text. */
  lemma NoMatchPastLineEnd(t: string, s: nat, e: nat)
    requires s + 1 <= e <= |t| && (e == |t| || t[e] == '\n') && !LinkTailAt(t, e)
    ensures forall e': nat :: e <= e' ==> !MarkdownMatchAt(t, s, e')
  {
    forall e': nat | e < e' ensures !MarkdownMatchAt(t, s, e') {
      if e' <= |t| { assert t[e] == '\n'; }
    }
  }

  /** Leftmost markdown match starting at or after `s`. */
  function FindMarkdownFrom(t: string, s: nat): (r: Option<(nat, nat)>)
    ensures r.Some? ==> (s <= r.value.0 && MarkdownMatchAt(t, r.value.0, r.value.1)
      && (forall s': nat, e': nat :: s <= s' < r.value.0 ==> !MarkdownMatchAt(t, s', e'))
      && (forall e': nat :: e' < r.value.1 ==> !MarkdownMatchAt(t, r.value.0, e')))
    ensures r.None? ==> forall s': nat, e': nat :: s <= s' ==> !MarkdownMatchAt(t, s', e')
    decreases |t| - s
  {
    if s >= |t| then None
    else
      var here := if t[s] == '[' then ShortestLinkEnd(t, s, s + 1) else None;
      if here.Some? then Some((s, here.value))
      else
        NoMatchHere(t, s, here);
        var rest := FindMarkdownFrom(t, s + 1);
        if rest.Some? then
          NoMatchBelow(t, s, rest.value.0);
          rest
        else
          NoMatchFrom(t, s);
          rest
  }

  lemma NoMatchHere(t: string, s: nat, here: Option<nat>)
    requires s < |t|
    requires here == if t[s] == '[' then ShortestLinkEnd(t, s, s + 1) else None
    requires here.None?
    ensures forall e': nat :: !MarkdownMatchAt(t, s, e')
  {
  }

  lemma NoMatchBelow(t: string, s: nat, v: nat)
    requires forall e': nat :: !MarkdownMatchAt(t, s, e')
    requires forall s': nat, e': nat :: s + 1 <= s' < v ==> !MarkdownMatchAt(t, s', e')
    ensures forall s': nat, e': nat :: s <= s' < v ==> !MarkdownMatchAt(t, s', e')
  {
  }

  lemma NoMatchFrom(t: string, s: nat)
    requires forall e': nat :: !MarkdownMatchAt(t, s, e')
    requires forall s': nat, e': nat :: s + 1 <= s' ==> !MarkdownMatchAt(t, s', e')
    ensures forall s': nat, e': nat :: s <= s' ==> !MarkdownMatchAt(t, s', e')
  {
  }

  // ---------------------------------------------------------------------
  // The plain pattern
  // ---------------------------------------------------------------------

  /** `.+?\}` matches from `a`: at least one non-newline character, then a
      closing brace, with no newline on the way. */
  ghost predicate ClosesAt(t: string, a: nat)
  {
    exists c :: a < c < |t| && t[c] == '}' && LineFreeBetween(t, a, c)
  }

  /** `\{\d+ (\S+) .+?\}` matches from `s`. The greedy `\d+` and `\S+` are
      each followed by a space, which neither class holds, so each takes
      its whole run; the group is `PlainGroup(t, s)`. */
  ghost predicate PlainMatchAt(t: string, s: nat)
  {
    s < |t| && t[s] == '{'
    && var k := DigitRunEnd(t, s + 1);
       k > s + 1 && k < |t| && t[k] == ' '
       && var u := NonSpaceRunEnd(t, k + 1);
          u > k + 1 && u < |t| && t[u] == ' ' && ClosesAt(t, u + 1)
  }

  /** The group of the plain pattern at `s`: the non-space run after the
      digits and their space. */
  function PlainGroup(t: string, s: nat): string
    requires s < |t|
  {
    var k := DigitRunEnd(t, s + 1);
    if k < |t| then t[k + 1..NonSpaceRunEnd(t, k + 1)] else ""
  }

  /** First closing brace at or after `c` reachable without a newline. */
  function CloseFrom(t: string, a: nat, c: nat): (r: bool)
    requires a <= c <= |t| && LineFreeBetween(t, a, c)
    ensures r <==> exists c' :: c <= c' < |t| && t[c'] == '}' && LineFreeBetween(t, a, c')
    decreases |t| - c
  {
    if c == |t| then false
    else if t[c] == '}' then true
    else if t[c] == '\n' then
      assert forall c' :: c <= c' < |t| ==> !LineFreeBetween(t, a, c') || c' == c;
      false
    else CloseFrom(t, a, c + 1)
  }

  /** Decides ClosesAt. */
  function Closes(t: string, a: nat): (r: bool)
    ensures r <==> ClosesAt(t, a)
  {
    if a >= |t| || t[a] == '\n' then false
    else CloseFrom(t, a, a + 1)
  }

  /** Decides PlainMatchAt. */
  function PlainAt(t: string, s: nat): (r: bool)
    ensures r <==> PlainMatchAt(t, s)
  {
    if s >= |t| || t[s] != '{' then false
    else
      var k := DigitRunEnd(t, s + 1);
      if k <= s + 1 || k >= |t| || t[k] != ' ' then false
      else
        var u := NonSpaceRunEnd(t, k + 1);
        u > k + 1 && u < |t| && t[u] == ' ' && Closes(t, u + 1)
  }

  /** Leftmost plain match starting at or after `s`. */
  function FindPlainFrom(t: string, s: nat): (r: Option<nat>)
    ensures r.Some? ==> (s <= r.value && PlainMatchAt(t, r.value)
      && forall s': nat :: s <= s' < r.value ==> !PlainMatchAt(t, s'))
    ensures r.None? ==> forall s': nat :: s <= s' ==> !PlainMatchAt(t, s')
    decreases |t| - s
  {
    if s >= |t| then None
    else if PlainAt(t, s) then Some(s)
    else FindPlainFrom(t, s + 1)
  }

  // ---------------------------------------------------------------------
  // extractUsername
  // ---------------------------------------------------------------------

  ghost predicate NoMarkdownMatch(t: string)
  {
    forall s: nat, e: nat :: !MarkdownMatchAt(t, s, e)
  }

  /** The plain match the engine reports: no plain match starts earlier. */
  ghost predicate LeftmostPlain(t: string, s: nat)
  {
    PlainMatchAt(t, s) && forall s': nat :: s' < s ==> !PlainMatchAt(t, s')
  }

  ghost predicate NoPlainMatch(t: string)
  {
    forall s: nat :: !PlainMatchAt(t, s)
  }

  datatype UsernameError = UsernameNotFound

  /** extractUsername: the markdown group of the preferred markdown match
      if there is one, else the group of the leftmost plain match, else
      the "username not found" error. */
  function ExtractUsername(t: string): (r: Result<string, UsernameError>)
    ensures forall s: nat, e: nat :: PreferredMarkdown(t, s, e) ==> r == Success(t[s + 1..e])
    ensures NoMarkdownMatch(t) ==> forall s: nat :: LeftmostPlain(t, s) ==> r == Success(PlainGroup(t, s))
    ensures r.Failure? <==> NoMarkdownMatch(t) && NoPlainMatch(t)
  {
    match FindMarkdownFrom(t, 0)
    case Some((s, e)) =>
      PreferredMarkdownUnique(t, s, e);
      Success(t[s + 1..e])
    case None =>
      match FindPlainFrom(t, 0)
      case Some(s) =>
        LeftmostPlainUnique(t, s);
        Success(PlainGroup(t, s))
      case None => Failure(UsernameNotFound)
  }

  /** At most one markdown match is preferred. */
  lemma PreferredMarkdownUnique(t: string, s: nat, e: nat)
    requires PreferredMarkdown(t, s, e)
    ensures forall s': nat, e': nat :: PreferredMarkdown(t, s', e') ==> s' == s && e' == e
  {
  }

  /** At most one plain match is leftmost. */
  lemma LeftmostPlainUnique(t: string, s: nat)
    requires LeftmostPlain(t, s)
    ensures forall s': nat :: LeftmostPlain(t, s') ==> s' == s
  {
  }

  // ---------------------------------------------------------------------
  // The reports extractUsername reads back
  // ---------------------------------------------------------------------

  const BannedHead: string := "**permanently banned ["

  /** The digit run of a text is determined by where the digits stop. */
  lemma DigitRunEndIs(t: string, d: nat, k: nat)
    requires d <= k < |t| && !IsDigit(t[k])
    requires forall j :: d <= j < k ==> IsDigit(t[j])
    ensures DigitRunEnd(t, d) == k
  {
  }

  /** So is the non-space run. */
  lemma NonSpaceRunEndIs(t: string, d: nat, k: nat)
    requires d <= k < |t| && IsSpaceClass(t[k])
    requires forall j :: d <= j < k ==> !IsSpaceClass(t[j])
    ensures NonSpaceRunEnd(t, d) == k
  {
  }

  /** The link tail starts with a closing bracket. */
  lemma LinkTailBracket(t: string, e: nat)
    requires LinkTailAt(t, e)
    ensures e < |t| && t[e] == ']'
  {
    assert t[e..][0] == LinkOpen[0];
  }

  /** The first `[` of a text, followed by a newline-free run without `]`
      and the link tail, is the match extractUsername reports: its group
      is the name. */
  lemma FirstLinkNamesUser(t: string, s: nat, e: nat)
    requires s < |t| && t[s] == '[' && forall j :: 0 <= j < s ==> t[j] != '['
    requires s + 1 <= e <= |t| && forall j :: s + 1 <= j < e ==> t[j] != ']' && t[j] != '\n'
    requires LinkTailAt(t, e)
    ensures ExtractUsername(t) == Success(t[s + 1..e])
  {
    assert MarkdownMatchAt(t, s, e);
    forall e': nat | e' < e ensures !MarkdownMatchAt(t, s, e') {
      if MarkdownMatchAt(t, s, e') { LinkTailBracket(t, e'); }
    }
    assert PreferredMarkdown(t, s, e);
  }

  /** A text without `[` whose first `{` opens a plain match: the plain
      group is what extractUsername reports. */
  lemma FirstBraceNamesUser(t: string, s: nat)
    requires '[' !in t
    requires PlainMatchAt(t, s) && forall j :: 0 <= j < s ==> t[j] != '{'
    ensures ExtractUsername(t) == Success(PlainGroup(t, s))
  {
    assert NoMarkdownMatch(t);
    assert LeftmostPlain(t, s);
  }

  /** The pieces of the plain pattern, laid out by position. */
  lemma PlainMatchOf(t: string, s: nat, k: nat, u: nat, c: nat)
    requires s + 1 < k < u - 1 && u + 1 < c < |t|
    requires t[s] == '{' && t[k] == ' ' && t[u] == ' ' && t[c] == '}'
    requires forall j :: s + 1 <= j < k ==> IsDigit(t[j])
    requires forall j :: k + 1 <= j < u ==> !IsSpaceClass(t[j])
    requires forall j :: u + 1 <= j < c ==> t[j] != '\n'
    ensures PlainMatchAt(t, s) && PlainGroup(t, s) == t[k + 1..u]
  {
    DigitRunEndIs(t, s + 1, k);
    NonSpaceRunEndIs(t, k + 1, u);
    assert LineFreeBetween(t, u + 1, c);
  }

  /** The link tail, laid out by position. */
  lemma LinkTailOf(t: string, e: nat, k: nat)
    requires e + |LinkOpen| < k < |t| && t[k] == ')'
    requires t[e..e + |LinkOpen|] == LinkOpen
    requires forall j :: e + |LinkOpen| <= j < k ==> IsDigit(t[j])
    ensures LinkTailAt(t, e)
  {
    assert t[e..][..|LinkOpen|] == t[e..e + |LinkOpen|];
    DigitRunEndIs(t, e + |LinkOpen|, k);
  }

  /** The rest of a ban report after the user name. */
  function ReportLinkRest(userID: int, escaped: string): string
  {
    LinkOpen + FormatInt(userID) + ")**\n\n" + ReplaceChar(escaped, '\n', ' ') + "\n\n"
  }

  /** The admin-chat text ReportBan writes for a banned user: a markdown
      link to the user, then the spam text (already escaped by the caller)
      with its newlines turned into spaces. */
  function BanReportText(name: string, userID: int, escaped: string): string
  {
    BannedHead + name + ReportLinkRest(userID, escaped)
  }

  lemma ReportLinkRestShape(userID: int, escaped: string)
    requires userID >= 0
    ensures var r := ReportLinkRest(userID, escaped);
      var k := |LinkOpen| + |FormatInt(userID)|;
      k < |r| && r[..|LinkOpen|] == LinkOpen && r[k] == ')'
      && forall j :: |LinkOpen| <= j < k ==> IsDigit(r[j])
  {
    var digits := FormatInt(userID);
    var more := ")**\n\n" + ReplaceChar(escaped, '\n', ' ') + "\n\n";
    var r := ReportLinkRest(userID, escaped);
    assert r == LinkOpen + digits + more;
    assert AllDigits(digits);
    assert forall j :: 0 <= j < |digits| ==> r[|LinkOpen| + j] == digits[j];
  }

  /** Positions in `BannedHead + name + rest`. */
  lemma ReportLayout(name: string, rest: string)
    ensures var t := BannedHead + name + rest;
      var e := |BannedHead| + |name|;
      t[e..] == rest && t[|BannedHead|..e] == name && t[|BannedHead| - 1] == '['
      && (forall j :: 0 <= j < |BannedHead| - 1 ==> t[j] != '[')
      && (forall j :: |BannedHead| <= j < e ==> t[j] == name[j - |BannedHead|])
  {
    var t := BannedHead + name + rest;
    assert forall j :: 0 <= j < |BannedHead| ==> t[j] == BannedHead[j];
  }

  /** extractUsername reads back the name ReportBan wrote, whatever the
      spam text, as long as the name holds no `]` or newline (either would
      end the lazy group early or stop it) and the id prints as digits. */
  lemma ReportNamesUser(name: string, userID: int, escaped: string)
    requires ']' !in name && '\n' !in name && userID >= 0
    ensures ExtractUsername(BanReportText(name, userID, escaped)) == Success(name)
  {
    var r := ReportLinkRest(userID, escaped);
    var t := BanReportText(name, userID, escaped);
    var e := |BannedHead| + |name|;
    var k := |LinkOpen| + |FormatInt(userID)|;
    ReportLinkRestShape(userID, escaped);
    ReportLayout(name, r);
    assert t[e..e + |LinkOpen|] == LinkOpen by {
      assert t[e..e + |LinkOpen|] == r[..|LinkOpen|];
    }
    forall j | e + |LinkOpen| <= j < e + k ensures IsDigit(t[j]) {
      assert t[j] == r[j - e];
    }
    assert t[e + k] == r[k];
    LinkTailOf(t, e, e + k);
    FirstLinkNamesUser(t, |BannedHead| - 1, e);
  }

  /** The plain pattern reads the user name out of `{id name rest}`, the
      way a bot.User prints, when the text around holds no markdown link
      (no `[` anywhere) and no earlier `{`. */
  lemma PlainNamesUser(head: string, digits: string, name: string, rest: string, tail: string)
    requires '{' !in head && '[' !in head && '[' !in name && '[' !in rest && '[' !in tail
    requires |digits| >= 1 && AllDigits(digits)
    requires |name| >= 1 && forall j :: 0 <= j < |name| ==> !IsSpaceClass(name[j])
    requires |rest| >= 1 && '\n' !in rest
    ensures ExtractUsername(head + "{" + digits + " " + name + " " + rest + "}" + tail) == Success(name)
  {
    var t := head + "{" + digits + " " + name + " " + rest + "}" + tail;
    assert '[' !in digits;
    assert '[' !in t;
    PlainLayoutMatch(head, digits, name, rest, tail);
    FirstBraceNamesUser(t, |head|);
  }

  lemma PlainLayoutMatch(head: string, digits: string, name: string, rest: string, tail: string)
    requires '{' !in head && AllDigits(digits) && |digits| >= 1
    requires |name| >= 1 && forall j :: 0 <= j < |name| ==> !IsSpaceClass(name[j])
    requires |rest| >= 1 && '\n' !in rest
    ensures var t := head + "{" + digits + " " + name + " " + rest + "}" + tail;
      PlainMatchAt(t, |head|) && PlainGroup(t, |head|) == name
      && forall j :: 0 <= j < |head| ==> t[j] != '{'
  {
    var t := head + "{" + digits + " " + name + " " + rest + "}" + tail;
    var s := |head|;
    var k := s + 1 + |digits|;
    var u := k + 1 + |name|;
    var c := u + 1 + |rest|;
    PlainLayout(head, digits, name, rest, tail);
    PlainMatchOf(t, s, k, u, c);
  }

  /** Positions in `head + "{" + digits + " " + name + " " + rest + "}" + tail`. */
  lemma PlainLayout(head: string, digits: string, name: string, rest: string, tail: string)
    requires '{' !in head && AllDigits(digits) && |digits| >= 1
    requires |name| >= 1 && forall j :: 0 <= j < |name| ==> !IsSpaceClass(name[j])
    requires |rest| >= 1 && '\n' !in rest
    ensures var t := head + "{" + digits + " " + name + " " + rest + "}" + tail;
      var s := |head|;
      var k := s + 1 + |digits|;
      var u := k + 1 + |name|;
      var c := u + 1 + |rest|;
      c < |t| && t[s] == '{' && t[k] == ' ' && t[u] == ' ' && t[c] == '}'
      && (forall j :: 0 <= j < s ==> t[j] != '{')
      && (forall j :: s + 1 <= j < k ==> IsDigit(t[j]))
      && (forall j :: k + 1 <= j < u ==> !IsSpaceClass(t[j]))
      && (forall j :: u + 1 <= j < c ==> t[j] != '\n')
      && t[k + 1..u] == name
  {
    var t := head + "{" + digits + " " + name + " " + rest + "}" + tail;
    var s := |head|;
    var k := s + 1 + |digits|;
    var u := k + 1 + |name|;
    var c := u + 1 + |rest|;
    assert forall j :: 0 <= j < s ==> t[j] == head[j];
    assert forall j :: s + 1 <= j < k ==> t[j] == digits[j - s - 1];
    assert forall j :: k + 1 <= j < u ==> t[j] == name[j - k - 1];
    assert forall j :: u + 1 <= j < c ==> t[j] == rest[j - u - 1];
  }

  /** The plain form of a user: id, user name, display name. */
  lemma PlainFormExample()
    ensures ExtractUsername("{200312168 umputun Umputun U}") == Success("umputun")
  {
    var name := "umputun";
    assert forall j :: 0 <= j < |name| ==> !IsSpaceClass(name[j]);
    assert AllDigits("200312168");
    PlainNamesUser("", "200312168", name, "Umputun U", "");
    PlainFormText();
  }

  lemma PlainFormText()
    ensures "" + "{" + "200312168" + " " + "umputun" + " " + "Umputun U" + "}" + "" == "{200312168 umputun Umputun U}"
  {
  }
}

=== FILE: wrappers.dfy ===
/** Failure-carrying values used across the model in place of Go's
    `(value, error)` pairs and `(value, ok)` lookups. */
module Wrappers {

  /** A value that may be absent, as in Go's comma-ok lookups. */
  datatype Option<+T> = None | Some(value: T)

  /** Either a value or the reason it could not be produced. */
  datatype Result<+R, +E> = Success(value: R) | Failure(error: E)
}
